=== FILE: README.md ===
# PowerFolio data layer and page rules, in Dafny

PowerFolio is a small project-showcase web application. Users sign up and submit projects.
An administrator approves or rejects them, and approved projects appear on a public listing.
All data lives in one in-memory store (`src/utils/storage.js`) with three parts: a list of
users, a list of projects, and a single session slot.

This project models that store as an immutable `Store` value. Every store operation is a
pure function from a store to the store it leaves behind and the value the source returns.
On top of the store it models the pure rules of the pages that use it:

- the technology parser, validation, submission record, edit-ownership check and text
  enhancements of the project form (`src/pages/SubmitProject.js`);
- the session flags and login/signup/logout wrappers of the auth context
  (`src/context/AuthContext.js`);
- the per-user listing and figures of the dashboard (`src/pages/Dashboard.js`);
- the filter the public listing builds (`src/pages/Home.js`);
- the status tabs, moderation actions and per-user project count of the admin panel
  (`src/pages/AdminPanel.js`).

Modules, in dependency order:

| file | module | contents |
|---|---|---|
| optional.dfy | `Optional` | `Option`, standing for JavaScript's `null`/`undefined` |
| seqs.dfy | `Seqs` | filtering, mapping, sums, first-match search, permutation facts |
| text.dfy | `Text` | ASCII lower-casing, `includes`, `trim`, `split`/`join` on one separator |
| records.dfy | `Records` | users, projects, partial update objects, shallow merge, the query filter |
| sorting.dfy | `Sorting` | the stable newest-first sort of the query |
| storage.dfy | `Storage` | the store operations |
| auth_context.dfy | `AuthContext` | the session context |
| submit_project.dfy | `SubmitProject` | the project form |
| dashboard.dfy | `Dashboard` | the user dashboard |
| home.dfy | `Home` | the public listing |
| admin_panel.dfy | `AdminPanel` | the moderation panel |
| seed.dfy | `Seed` | the seeded store, used as a fixture |

Some representation choices:

- **Ids and timestamps are inputs.** Ids (`Date.now().toString()`) and timestamps
  (`new Date()`) are passed in as `freshId` and `now`.
- **`createdAt` is an integer.** It counts milliseconds, in place of an ISO 8601 string.
  The query's comparator `new Date(b.createdAt) - new Date(a.createdAt)` becomes a
  comparison of these integers.
- **Partial objects are `Option` fields.** JavaScript objects with optional fields
  (`updates`, `userData`, `projectData`) become `UserFields` and `ProjectFields`, with one
  `Option` per field. `{ ...old, ...updates }` is `MergeUser` / `MergeProject`.
- **First match wins.** Lookups, updates and deletes act on the first record matching an
  id or email, as `find`/`findIndex` do. Their contracts say so through `IsFirst`.

## Model

| member | source | states |
|---|---|---|
| Storage.GetUserByEmail | src/utils/storage.js:88-90 | the result is `None` iff no user has the email; otherwise it is the first user that has it |
| Storage.GetProjectById | src/utils/storage.js:152-154 | the result is `None` iff no project has the id; otherwise it is the first project that has it |
| Storage.GetUserById | src/utils/storage.js:84-86 | the result is `None` iff no user has the id; otherwise it is the first user that has it |
| Storage.GetProjects | src/utils/storage.js:122-150 | a project is in the result iff it is in the store and satisfies every truthy field of the filter; the result has the multiplicities of the matching projects and is ordered newest first |
| Storage.NarrowIsWhereMatches | src/utils/storage.js:123-144 | applying the four filter stages one after another, as the source does, keeps exactly the projects that match the whole conjunction, in store order |
| Storage.GetProjectsIsStable | src/utils/storage.js:147 | the query result is the stable newest-first sort of the matching projects; projects created at the same instant keep their store order |
| Storage.EmptyFilterKeepsAll | src/utils/storage.js:122-123 | the empty filter returns every project, as a permutation; a store already ordered newest first comes back unchanged |
| Storage.EmptyStringIsNoConstraint | src/utils/storage.js:125-137 | an empty-string filter field gives the same result as an absent one, for each of the four fields |
| Storage.SearchHitIff | src/utils/storage.js:137-143 | the search predicate holds iff the lower-cased term is a substring of the lower-cased title, of the lower-cased description, or of some lower-cased technology |
| Storage.SearchIgnoresCase | src/utils/storage.js:138 | a search term and its lower-cased form select the same projects |
| Storage.CreateUser | src/utils/storage.js:92-101 | exactly one user is appended and nothing else changes; the role is `user` and the creation time is `now` whatever the caller passes; a caller-supplied id overrides the fresh one; supplied fields are kept |
| Storage.UpdateUser | src/utils/storage.js:103-110 | an unknown id gives `null` and the same store; otherwise only the first user with the id is replaced by its merge with the updates, and that merged user is returned |
| Storage.DeleteUser | src/utils/storage.js:112-119 | the result is false iff no user has the id, with the store unchanged; otherwise only the first such user is removed and the others keep their order |
| Storage.DeleteUserKeepsProjects | src/utils/storage.js:112-119 | deleting a user leaves every project query unchanged |
| Storage.CreateProject | src/utils/storage.js:156-167 | exactly one project is appended and nothing else changes; it is pending, has no likes or views and is created at `now` whatever the caller passes; a caller-supplied id overrides the fresh one; supplied content fields are kept |
| Storage.CreateProjectForcesModeration | src/utils/storage.js:159-163 | changing the status, likes, views or creation time the caller passes does not change the created project |
| Storage.CreateThenGet | src/utils/storage.js:156-167 | a project created under an id no other project has is what a lookup by that id returns |
| Storage.UpdateProject | src/utils/storage.js:169-176 | an unknown id gives `null` and the same store; otherwise only the first project with the id is replaced by its merge with the updates, and that merged project is returned |
| Storage.DeleteProject | src/utils/storage.js:178-185 | the result is false iff no project has the id, with the store unchanged; otherwise only the first such project is removed and the others keep their order |
| Storage.DeleteProjectRemovesOne | src/utils/storage.js:178-185 | a successful delete lowers the number of projects carrying the id by exactly one |
| Storage.IncrementProjectViews | src/utils/storage.js:187-192 | an unknown id leaves the store unchanged; otherwise only the first project with the id changes, by exactly one more view |
| Storage.ToggleProjectLike | src/utils/storage.js:194-204 | an unknown id gives 0 and the same store; otherwise only the first project with the id changes, by exactly one more like, and the new count is returned |
| Storage.LikeIgnoresUser | src/utils/storage.js:194-204 | the user id has no effect on the result |
| Storage.LikeReturnsZeroOnlyWhenMissing | src/utils/storage.js:196-203 | 0 is returned iff no project has the id |
| Storage.CountersNeverDecrease | src/utils/storage.js:187-204 | neither a view nor a like ever lowers any project's likes or views |
| Storage.Login | src/utils/storage.js:220-227 | login succeeds iff the first user with the email has exactly that password; success sets the session to that user; failure leaves the store as it was and always gives the same message |
| Storage.LoginDoesNotLeakEmails | src/utils/storage.js:220-227 | an unknown email and a wrong password give identical results |
| Storage.Logout | src/utils/storage.js:229-231 | the session is cleared, whatever it held, and users and projects are unchanged |
| Storage.Signup | src/utils/storage.js:233-242 | a registered email fails and changes nothing; otherwise the created user is appended with role `user` and becomes the session user |
| Storage.SignupThenLogin | src/utils/storage.js:220-242 | right after a signup, the same email and password log in as the new user |
| Storage.GetAnalytics | src/utils/storage.js:245-258 | the totals equal the number of projects and users; each status count is the number of projects with that status; the view and like totals are sums over all projects; all are the store's figures, though the source computes them over a re-ordered copy |
| Sorting.SortNewestFirst | src/utils/storage.js:147 | the result is ordered by creation time, newest first, and is a permutation of the input |
| Sorting.SortIsStable | src/utils/storage.js:147 | for every instant, the projects created then appear in the same order as in the input |
| Sorting.SortOfSorted | src/utils/storage.js:147 | an input already ordered newest first is returned unchanged |
| Text.IncludesIff | src/utils/storage.js:140-142 | `includes` holds iff the needle occurs as a contiguous slice of the haystack |
| Text.Trim | src/pages/SubmitProject.js:109 | the result has no leading or trailing white space |
| Text.TrimIsSlice | src/pages/SubmitProject.js:109 | the trimmed text is a contiguous slice of the original |
| Text.SplitJoin | src/pages/SubmitProject.js:109 | splitting a separator-joined list of pieces that do not contain the separator gives the pieces back |
| Text.JoinSplit | src/pages/SubmitProject.js:109 | joining the pieces of a split with the separator gives the original text back |
| SubmitProject.ParseTechnologies | src/pages/SubmitProject.js:109 | every parsed technology is non-empty, has no surrounding white space and contains no comma |
| SubmitProject.ParseConcat | src/pages/SubmitProject.js:109 | parsing keeps order: the technologies before a comma come first |
| SubmitProject.ParseJoinRoundTrip | src/pages/SubmitProject.js:59-109 | parsing the `", "`-joined list that the edit form shows gives back every list of non-empty, trimmed, comma-free technologies |
| SubmitProject.CommasAndSpacesParseToNothing | src/pages/SubmitProject.js:101-109 | text made only of commas and spaces parses to no technology at all |
| SubmitProject.ProjectData | src/pages/SubmitProject.js:107-113 | the record carries the form's title, description, category and links, the parsed technologies, and the session user's id and name; the image falls back to the first sample image when the field is empty; id, status, counters and creation time are not supplied |
| SubmitProject.HandleSubmit | src/pages/SubmitProject.js:94-132 | a missing title, description or technologies text gives the error and leaves the store alone; with an edit id it reports an update, replaces the first project with that id by its merge with the submitted record and leaves every other project and the users as they were, and an unknown id changes nothing; otherwise it appends one pending project with the fresh id with no likes or views, created now, carrying the form's title, description, category, links, parsed technologies and image (or the default image), owned by the session user |
| SubmitProject.EditKeepsModeration | src/pages/SubmitProject.js:107-118 | an edit sets the title, description, category, parsed technologies, links, image (or the default image) and owner of the first project with the id from the form and session user, and keeps its id, status, counters and creation time, while every other project stays as it was; an unknown id leaves the store unchanged and still reports success |
| SubmitProject.FormOf | src/pages/SubmitProject.js:54-62 | the form shows the project's title, description, category, links and image as they are, and its technologies joined with `", "`, which parse back to the project's list when that list is clean |
| SubmitProject.MissingRequired | src/pages/SubmitProject.js:101-105 | the form is rejected iff the title, the description or the technologies text is empty (falsy); the blank initial form is always rejected |
| SubmitProject.EnhanceKeepsValidity | src/pages/SubmitProject.js:78-105 | enhancing the title or description never changes whether the form passes the required-field check |
| SubmitProject.LoadForEdit | src/pages/SubmitProject.js:51-68 | the form is prefilled iff the edit id is truthy and the first project with that id belongs to the session user; without an edit id the form is kept; otherwise the page redirects |
| SubmitProject.PrefillRoundTrip | src/pages/SubmitProject.js:59-109 | the technologies of a prefilled form parse back to the project's own list |
| SubmitProject.PrefillIsFormOf | src/pages/SubmitProject.js:51-62 | a prefilled form is the form of the first project with the edit id, and that project belongs to the session user |
| SubmitProject.ResubmitKeepsProject | src/pages/SubmitProject.js:54-113 | the form of a complete project with clean technologies passes validation, and merging the record built from it, by its owner, gives the project back unchanged |
| SubmitProject.EditWithoutChange | src/pages/SubmitProject.js:116-118 | an edit whose merged record equals the stored project leaves the whole store as it was |
| SubmitProject.UnchangedEditIsNoOp | src/pages/SubmitProject.js:51-117 | submitting the prefilled form unchanged, as its owner, leaves the store as it was |
| SubmitProject.EnhanceWithAI | src/pages/SubmitProject.js:78-87 | a non-empty title becomes the rocket prefix, the trimmed title and the suffix; a non-empty description becomes the trimmed text followed by the feature block; the other fields are unchanged, and every other request leaves the form as it is |
| AuthContext.IsAuthenticated | src/context/AuthContext.js:53 | true iff a user is set; while the context is in step with the store, true iff the store has a session user |
| AuthContext.IsAdmin | src/context/AuthContext.js:54 | true iff a user is set and has the admin role, so it implies `IsAuthenticated`; while the context is in step with the store, true iff the store's session user is an admin |
| AuthContext.Mount | src/context/AuthContext.js:18-25 | the context starts with the store's session user |
| AuthContext.ContextLogin | src/context/AuthContext.js:27-33 | the store's result is returned unchanged; the context user is set only on success |
| AuthContext.ContextSignup | src/context/AuthContext.js:35-41 | the store's result is returned unchanged; the context user is set only on success |
| AuthContext.ContextLogout | src/context/AuthContext.js:43-46 | both the store session and the context user are cleared, whatever they held |
| AuthContext.LoginKeepsInSync | src/context/AuthContext.js:27-33 | login keeps the context user equal to the store's session user |
| AuthContext.SignupKeepsInSync | src/context/AuthContext.js:35-41 | signup keeps the context user equal to the store's session user |
| AuthContext.LogoutKeepsInSync | src/context/AuthContext.js:43-46 | logout keeps the context user equal to the store's session user |
| AuthContext.LoginAdminIffRole | src/context/AuthContext.js:27-54 | after a successful login the session is an admin session iff the account's role is admin |
| AuthContext.SignupIsNeverAdmin | src/context/AuthContext.js:35-54 | a successful signup gives an authenticated session that is never an admin session |
| Dashboard.UserProjects | src/pages/Dashboard.js:28-30 | a project is listed iff it is in the store and owned by the user (when the user's id is not empty); the list is the stable newest-first sort of those projects |
| Dashboard.ComputeStats | src/pages/Dashboard.js:33-40 | the total is the number of projects; the three status counts never exceed it and add up to it when every status is one of the three |
| Dashboard.LoadDashboard | src/pages/Dashboard.js:28-42 | the figures, computed over the newest-first list, equal the counts and sums over the user's projects in store order |
| Dashboard.StatsWithinAnalytics | src/pages/Dashboard.js:33-40 | each of the user's figures is at most the matching figure of the store's analytics |
| Dashboard.EmptyIdSeesEverything | src/pages/Dashboard.js:29 | a user whose id is the empty string sees the figures of the whole store |
| Dashboard.OwnerFilterSelectsScope | src/pages/Dashboard.js:29 | the dashboard's `{ userId }` query selects the user's own projects in store order, or every project when the id is empty |
| Home.HomeFilter | src/pages/Home.js:22-27 | the filter always asks for approved projects; it has a category iff the category is not "all", and a search iff the term is not empty |
| Home.LoadHomeProjects | src/pages/Home.js:22-30 | a project is listed iff it is approved, in the selected category (unless that is "all" or empty), and a search hit (unless the term is empty); the list is the stable newest-first sort of those projects, each as often as in the store, projects created at the same instant in store order |
| Home.DefaultListing | src/pages/Home.js:22-29 | with "all" and no search term, the listing is every approved project, in stable newest-first order |
| Home.NarrowingOnlyRemoves | src/pages/Home.js:22-29 | choosing a category or typing a search term never shows a project the default listing does not show |
| AdminPanel.LoadData | src/pages/AdminPanel.js:20-24 | the panel holds every project, as the stable newest-first sort of the store, the users, and the store's analytics, whose total matches the list |
| AdminPanel.FilteredProjects | src/pages/AdminPanel.js:43-46 | the "all" tab is the loaded list itself; any other tab holds exactly the projects with that status, each as often as it occurs, in the loaded list's relative order (it is a subsequence of that list), so newest-first order is kept |
| AdminPanel.TabCountsMatchButtons | src/pages/AdminPanel.js:170-191 | the count on each tab button equals the number of rows the tab shows: the whole list for "All Projects", and the analytics' pending, approved and rejected counts for the status tabs |
| AdminPanel.Approve | src/pages/AdminPanel.js:26-29 | only the first project with the id changes, and only its status, to approved, whatever it was; an unknown id changes nothing |
| AdminPanel.Reject | src/pages/AdminPanel.js:31-34 | only the first project with the id changes, and only its status, to rejected, whatever it was; an unknown id changes nothing |
| AdminPanel.SetStatus | src/pages/AdminPanel.js:26-34 | the first project with the id gets the new status and every other field and project stays as it was; an unknown id changes nothing; users and session are untouched |
| AdminPanel.SetStatusChangesIff | src/pages/AdminPanel.js:26-34 | setting a status changes the store iff a project has the id and its status differs |
| AdminPanel.ApproveOffered | src/pages/AdminPanel.js:229-237 | the approve button is shown iff setting the row's status to approved would change the row |
| AdminPanel.RejectOffered | src/pages/AdminPanel.js:238-246 | the reject button is shown iff setting the row's status to rejected would change the row |
| AdminPanel.OfferedIffEffective | src/pages/AdminPanel.js:229-246 | a row offers approve (reject) iff approving (rejecting) it would change the store |
| AdminPanel.SomeActionOffered | src/pages/AdminPanel.js:229-246 | every row offers at least one of the two actions, and a pending row offers both |
| AdminPanel.ProjectCountFor | src/pages/AdminPanel.js:295 | the count is the number of projects whose owner id is the user's id |
| AdminPanel.ProjectCountMatchesDashboard | src/pages/AdminPanel.js:295 | over the loaded list, a user's count equals their count in the store and their dashboard total |
| Seed.InitialAnalytics | src/utils/storage.js:11-75 | the seeded store has three approved projects, one user, 1209 views and 201 likes |
| Seed.AdminCanLogIn | src/utils/storage.js:14-21 | the seeded administrator can log in, and the session is an admin session |
| Seed.InitialHomeOrder | src/utils/storage.js:24-73 | the default listing of the seeded store is project 2, then 1, then 3 |

## Left out

- Id and clock generation (`Date.now()`, `new Date().toISOString()`) at src/utils/storage.js:94, 97, 158 and 163. These become the `freshId` and `now` parameters.
- `createdAt` is an integer number of milliseconds rather than an ISO 8601 string. Parsing dates is not modelled.
- Random image choice (`selectRandomImage`, src/pages/SubmitProject.js:89-92). `Math.random` is not deterministic.
- `window.confirm`, `toLocaleDateString`, the `setTimeout` redirect, `navigate`, and the JSX, CSS and icons of the pages. These are browser I/O and presentation.
- `handleChange` (src/pages/SubmitProject.js:70-76). It only copies an input's value into the form.
- React state and effect scheduling (`useState`, `useEffect`, the `loading` flag). Component logic is modelled as pure functions of their inputs.
- The `try`/`catch` around the store calls in `handleSubmit`. The modelled store operations cannot throw.
- `getUsers`, `getCurrentUser`, `setCurrentUser` and `clearCurrentUser`. They only read or write a store field; `Login`, `Signup` and `Logout` inline them.
- Text.Lower: lower-cases ASCII letters only, not the full Unicode case mapping of `toLowerCase`.
- Characters are Unicode scalar values, not UTF-16 code units. String lengths of non-BMP text (such as the rocket emoji) differ from JavaScript's.
- Storage.CreateUser and Storage.CreateProject store an omitted content field as the empty string (or empty list) where JavaScript would leave it `undefined`.
- Storage.Login: because an omitted email is stored as the empty string, logging in with the empty email and the stored password succeeds here, where the source's `find` cannot match an `undefined` email and returns the failure.
- SubmitProject.FormOf: the `|| ''` fallbacks for the links are the identity here, because a model string is never `undefined`.
- Storage.Signup: because an omitted email is stored as the empty string rather than `undefined`, a second signup without an email is accepted here, where the source would find the first such user and refuse; and after such a signup, a signup with the email `""` is refused here, where the source accepts it because `undefined === ""` is false.
- Storage.IncrementProjectViews, Storage.ToggleProjectLike and Storage.GetAnalytics: counters and sums are unbounded `nat`s. JavaScript numbers are doubles, so `+ 1` and the `reduce` sums are exact only up to 2^53; no store reaches that.
- Records: status and role are plain strings, so the store accepts any value, as the source does. Only "approved", "pending", "rejected", "admin" and "user" carry meaning.
- Seed.InitialStore: the seeded descriptions, technologies, links and images are left empty. No seed property depends on them.
- Dashboard.UserProjects: the dashboard's "only the user's projects" holds only for a non-empty user id. With an empty id, the falsy filter field lists every project (`Dashboard.EmptyIdSeesEverything`).
- `handleDelete` on the dashboard and the admin panel. Behind its confirmation dialog it is `Storage.DeleteProject` followed by a reload.

=== FILE: admin_panel.dfy ===
/** The moderation panel (src/pages/AdminPanel.js): the data it loads, the status tabs, the
    approve and reject actions, which of them a row offers, and the per-user project count. */
module AdminPanel {
  import opened Optional
  import opened Seqs
  import opened Records
  import opened Sorting
  import opened Storage
  import Dashboard

  /** The tab that shows every project. */
  const ALL_TAB: string := "all"

  /** What `loadData` reads: every project newest first, the users and the analytics. */
  datatype PanelData = PanelData(projects: seq<Project>, users: seq<User>, analytics: Analytics)

  function LoadData(s: Store): (d: PanelData)
    ensures multiset(d.projects) == multiset(s.projects) && NewestFirst(d.projects)
    ensures d.projects == SortNewestFirst(s.projects)
    ensures d.users == s.users
    ensures d.analytics == GetAnalytics(s)
    ensures d.analytics.totalProjects == |d.projects|
  {
    EmptyFilterKeepsAll(s);
    GetProjectsIsStable(s, NO_FILTER, 0);
    WhereAll(s.projects, MatchesFilter(NO_FILTER));
    var ps := GetProjects(s, NO_FILTER);
    assert |ps| == |multiset(ps)| == |multiset(s.projects)| == |s.projects|;
    PanelData(ps, s.users, GetAnalytics(s))
  }

  /** The count on each tab's button is the number of rows that tab shows: "All Projects"
      counts the loaded list, the status buttons show the analytics' status counts. */
  lemma TabCountsMatchButtons(s: Store)
    ensures var d := LoadData(s);
            && |FilteredProjects(d.projects, ALL_TAB)| == |d.projects|
            && |FilteredProjects(d.projects, PENDING)| == d.analytics.pendingProjects
            && |FilteredProjects(d.projects, APPROVED)| == d.analytics.approvedProjects
            && |FilteredProjects(d.projects, REJECTED)| == d.analytics.rejectedProjects
  {
    var d := LoadData(s);
    CountWherePermutation(d.projects, s.projects, HasStatus(PENDING));
    CountWherePermutation(d.projects, s.projects, HasStatus(APPROVED));
    CountWherePermutation(d.projects, s.projects, HasStatus(REJECTED));
  }

  /** `getFilteredProjects`: the loaded list on the "all" tab, otherwise its projects with the
      tab's status, each as often as it occurs and in the same relative order. */
  function FilteredProjects(ps: seq<Project>, tab: string): (r: seq<Project>)
    ensures tab == ALL_TAB ==> r == ps
    ensures tab != ALL_TAB ==> forall p :: p in r <==> p in ps && p.status == tab
    ensures tab != ALL_TAB ==> forall p :: multiset(r)[p] == if p.status == tab then multiset(ps)[p] else 0
    ensures tab != ALL_TAB ==> SubsequenceOf(r, ps)
    ensures NewestFirst(ps) ==> NewestFirst(r)
  {
    if tab == ALL_TAB then ps
    else
      WhereIsSubsequence(ps, HasStatus(tab));
      WhereMembers(ps, HasStatus(tab));
      WhereMultiplicity(ps, HasStatus(tab));
      assert NewestFirst(ps) ==> NewestFirst(Where(ps, HasStatus(tab))) by {
        if NewestFirst(ps) {
          WhereKeepsOrder(ps, HasStatus(tab));
        }
      }
      Where(ps, HasStatus(tab))
  }

  /** A filter keeps every passing element as many times as it occurs and drops the rest. */
  lemma {:induction false} WhereMultiplicity(ps: seq<Project>, keep: Project -> bool)
    ensures forall p :: multiset(Where(ps, keep))[p] == if keep(p) then multiset(ps)[p] else 0
  {
    if ps != [] {
      WhereMultiplicity(ps[1..], keep);
      assert ps == [ps[0]] + ps[1..];
    }
  }

  /** `updateProject(projectId, { status })`: sets the status of the first project with that
      id, whatever it was before, and changes nothing else. */
  function SetStatus(s: Store, projectId: string, status: string): (r: Store)
    ensures (forall j :: 0 <= j < |s.projects| ==> s.projects[j].id != projectId) ==> r == s
    ensures forall i :: IsFirst(s.projects, ProjectHasId(projectId), i) ==>
              ReplacedAt(s.projects, r.projects, i, s.projects[i].(status := status))
    ensures r.users == s.users && r.currentUser == s.currentUser
  {
    UpdateProject(s, projectId, NO_PROJECT_FIELDS.(status := Some(status))).0
  }

  /** `handleApprove`. */
  function Approve(s: Store, projectId: string): (r: Store)
    ensures (forall j :: 0 <= j < |s.projects| ==> s.projects[j].id != projectId) ==> r == s
    ensures forall i :: IsFirst(s.projects, ProjectHasId(projectId), i) ==>
              ReplacedAt(s.projects, r.projects, i, s.projects[i].(status := APPROVED))
    ensures r.users == s.users && r.currentUser == s.currentUser
  {
    SetStatus(s, projectId, APPROVED)
  }

  /** `handleReject`. */
  function Reject(s: Store, projectId: string): (r: Store)
    ensures (forall j :: 0 <= j < |s.projects| ==> s.projects[j].id != projectId) ==> r == s
    ensures forall i :: IsFirst(s.projects, ProjectHasId(projectId), i) ==>
              ReplacedAt(s.projects, r.projects, i, s.projects[i].(status := REJECTED))
    ensures r.users == s.users && r.currentUser == s.currentUser
  {
    SetStatus(s, projectId, REJECTED)
  }

  /** A row offers "approve" unless the project is already approved: exactly when approving
      would change the row. */
  function ApproveOffered(p: Project): (b: bool)
    ensures b <==> p.(status := APPROVED) != p
  {
    p.status != APPROVED
  }

  /** A row offers "reject" unless the project is already rejected: exactly when rejecting
      would change the row. */
  function RejectOffered(p: Project): (b: bool)
    ensures b <==> p.(status := REJECTED) != p
  {
    p.status != REJECTED
  }

  /** The offered actions are exactly those that would change the store: setting a status
      changes it iff the project exists and does not have that status yet. */
  lemma {:induction false} SetStatusChangesIff(s: Store, projectId: string, status: string)
    ensures SetStatus(s, projectId, status) != s <==>
              exists i :: IsFirst(s.projects, ProjectHasId(projectId), i) && s.projects[i].status != status
  {
    match FirstIndex(s.projects, ProjectHasId(projectId))
    case None =>
    case Some(i) =>
      FirstIsUnique(s.projects, ProjectHasId(projectId), i, i);
      var r := SetStatus(s, projectId, status);
      if s.projects[i].status == status {
        assert s.projects[i].(status := status) == s.projects[i];
        assert r.projects == s.projects;
      } else {
        assert r.projects[i] != s.projects[i];
      }
  }

  /** Approving the first project with an id changes the store exactly when its row offers
      "approve"; likewise for reject. */
  lemma OfferedIffEffective(s: Store, i: nat)
    requires i < |s.projects| && IsFirst(s.projects, ProjectHasId(s.projects[i].id), i)
    ensures Approve(s, s.projects[i].id) != s <==> ApproveOffered(s.projects[i])
    ensures Reject(s, s.projects[i].id) != s <==> RejectOffered(s.projects[i])
  {
    var id := s.projects[i].id;
    SetStatusChangesIff(s, id, APPROVED);
    SetStatusChangesIff(s, id, REJECTED);
    forall k | IsFirst(s.projects, ProjectHasId(id), k)
      ensures k == i
    {
      FirstIsUnique(s.projects, ProjectHasId(id), i, k);
    }
  }

  /** Every row offers at least one of the two actions, and a pending row offers both. */
  lemma SomeActionOffered(p: Project)
    ensures ApproveOffered(p) || RejectOffered(p)
    ensures p.status == PENDING ==> ApproveOffered(p) && RejectOffered(p)
  {
  }

  /** The "Projects" column of the users table: `projects.filter(p => p.userId === user.id).length`. */
  function ProjectCountFor(ps: seq<Project>, user: User): (n: nat)
    ensures n == |Where(ps, OwnedBy(user.id))|
  {
    CountWhere(ps, OwnedBy(user.id))
  }

  /** Over the loaded list, a user's count is the number of their projects in the store, and
      it agrees with that user's dashboard total when the id is not empty. */
  lemma ProjectCountMatchesDashboard(s: Store, user: User)
    ensures ProjectCountFor(LoadData(s).projects, user) == CountWhere(s.projects, OwnedBy(user.id))
    ensures user.id != "" ==>
              ProjectCountFor(LoadData(s).projects, user) == Dashboard.LoadDashboard(s, user).1.total
  {
    CountWherePermutation(LoadData(s).projects, s.projects, OwnedBy(user.id));
  }
}

=== FILE: auth_context.dfy ===
/** The authentication context (src/context/AuthContext.js): a copy of the session user kept
    beside the store, the flags derived from it, and the wrappers around the store's
    `login`, `signup` and `logout`. */
module AuthContext {
  import opened Optional
  import opened Seqs
  import opened Records
  import opened Storage

  /** The store together with the context's own `user` state. */
  datatype Context = Context(store: Store, user: Option<User>)

  /** `isAuthenticated: !!user`. While the context is in step with the store, it tells
      whether the store has a session user. */
  function IsAuthenticated(c: Context): (b: bool)
    ensures b <==> c.user.Some?
    ensures InSync(c) ==> (b <==> c.store.currentUser.Some?)
  {
    c.user.Some?
  }

  /** `isAdmin: user?.role === 'admin'`. Every admin is authenticated. */
  function IsAdmin(c: Context): (b: bool)
    ensures b <==> c.user.Some? && c.user.value.role == ROLE_ADMIN
    ensures b ==> IsAuthenticated(c)
    ensures InSync(c) ==> (b <==> c.store.currentUser.Some? && c.store.currentUser.value.role == ROLE_ADMIN)
  {
    match c.user
    case Some(u) => u.role == ROLE_ADMIN
    case None => false
  }

  /** The context user is the store's session user. */
  predicate InSync(c: Context)
  {
    c.user == c.store.currentUser
  }

  /** The mount effect: the context starts without a user and adopts the store's session
      user when there is one. */
  function Mount(s: Store): (c: Context)
    ensures c.store == s
    ensures InSync(c)
  {
    var initial := Context(s, None);
    match s.currentUser
    case Some(u) => initial.(user := Some(u))
    case None => initial
  }

  /** `login`: passes the store's result through unchanged and adopts its user on success. */
  function ContextLogin(c: Context, email: string, password: string): (r: (Context, AuthResult))
    ensures (r.0.store, r.1) == Login(c.store, email, password)
    ensures r.1.Success? ==> r.0.user == Some(r.1.user)
    ensures r.1.Failure? ==> r.0 == c
  {
    var (s, result) := Login(c.store, email, password);
    if result.Success? then (Context(s, Some(result.user)), result) else (c.(store := s), result)
  }

  /** `signup`: passes the store's result through unchanged and adopts its user on success. */
  function ContextSignup(c: Context, data: UserFields, freshId: string, now: int): (r: (Context, AuthResult))
    ensures (r.0.store, r.1) == Signup(c.store, data, freshId, now)
    ensures r.1.Success? ==> r.0.user == Some(r.1.user)
    ensures r.1.Failure? ==> r.0 == c
  {
    var (s, result) := Signup(c.store, data, freshId, now);
    if result.Success? then (Context(s, Some(result.user)), result) else (c.(store := s), result)
  }

  /** `logout`: clears the store's session and the context user, whatever they held. */
  function ContextLogout(c: Context): (r: Context)
    ensures !IsAuthenticated(r) && !IsAdmin(r)
    ensures r.store.currentUser.None?
    ensures r.store.users == c.store.users && r.store.projects == c.store.projects
  {
    Context(Logout(c.store), None)
  }

  /** Each operation keeps the context user equal to the store's session user. */
  lemma LoginKeepsInSync(c: Context, email: string, password: string)
    requires InSync(c)
    ensures InSync(ContextLogin(c, email, password).0)
  {
    if ContextLogin(c, email, password).1.Success? {
      var i := FirstIndex(c.store.users, UserHasEmail(email)).value;
      assert IsFirst(c.store.users, UserHasEmail(email), i);
    }
  }

  lemma SignupKeepsInSync(c: Context, data: UserFields, freshId: string, now: int)
    requires InSync(c)
    ensures InSync(ContextSignup(c, data, freshId, now).0)
  {
  }

  lemma LogoutKeepsInSync(c: Context)
    ensures InSync(ContextLogout(c))
  {
  }

  /** A successful login is an admin session exactly when the account's role is admin. */
  lemma LoginAdminIffRole(c: Context, email: string, password: string)
    requires ContextLogin(c, email, password).1.Success?
    ensures IsAdmin(ContextLogin(c, email, password).0) <==>
              GetUserByEmail(c.store.users, email).value.role == ROLE_ADMIN
  {
    var i := FirstIndex(c.store.users, UserHasEmail(email)).value;
    assert IsFirst(c.store.users, UserHasEmail(email), i);
  }

  /** Signing up never yields an admin session, whatever role the caller asked for. */
  lemma SignupIsNeverAdmin(c: Context, data: UserFields, freshId: string, now: int)
    requires ContextSignup(c, data, freshId, now).1.Success?
    ensures IsAuthenticated(ContextSignup(c, data, freshId, now).0)
    ensures !IsAdmin(ContextSignup(c, data, freshId, now).0)
  {
  }
}

=== FILE: dashboard.dfy ===
/** The user dashboard (src/pages/Dashboard.js): the session user's projects, fetched through
    the project query, and the figures computed from them. */
module Dashboard {
  import opened Optional
  import opened Seqs
  import opened Records
  import opened Sorting
  import opened Storage

  /** The figures the dashboard shows. */
  datatype Stats = Stats(
    total: nat,
    approved: nat,
    pending: nat,
    rejected: nat,
    totalViews: nat,
    totalLikes: nat)

  /** The query the dashboard issues: `{ userId: user.id }`. */
  function OwnerFilter(user: User): Filter
  {
    NO_FILTER.(userId := Some(user.id))
  }

  /** The projects the dashboard's query selects, in store order: the user's own projects,
      or every project when the user's id is the empty string (a falsy filter field). */
  function Scope(s: Store, user: User): seq<Project>
  {
    if user.id == "" then s.projects else Where(s.projects, OwnedBy(user.id))
  }

  lemma OwnerFilterSelectsScope(s: Store, user: User)
    ensures Where(s.projects, MatchesFilter(OwnerFilter(user))) == Scope(s, user)
  {
    if user.id == "" {
      WhereAll(s.projects, MatchesFilter(OwnerFilter(user)));
    } else {
      WhereSame(s.projects, MatchesFilter(OwnerFilter(user)), OwnedBy(user.id));
    }
  }

  /** `getProjects({ userId: user.id })`: exactly the user's projects, newest first, with
      projects of equal creation time in store order. */
  function UserProjects(s: Store, user: User): (r: seq<Project>)
    ensures user.id != "" ==> forall p :: p in r <==> p in s.projects && p.userId == user.id
    ensures multiset(r) == multiset(Scope(s, user))
    ensures NewestFirst(r)
    ensures r == SortNewestFirst(Scope(s, user))
  {
    OwnerFilterSelectsScope(s, user);
    GetProjectsIsStable(s, OwnerFilter(user), 0);
    GetProjects(s, OwnerFilter(user))
  }

  predicate KnownStatus(p: Project)
  {
    p.status == APPROVED || p.status == PENDING || p.status == REJECTED
  }

  /** The three status counts never exceed the total, and they add up to it when every
      project carries one of the three statuses. */
  lemma {:induction false} StatusesPartition(ps: seq<Project>)
    ensures CountWhere(ps, HasStatus(APPROVED)) + CountWhere(ps, HasStatus(PENDING))
            + CountWhere(ps, HasStatus(REJECTED)) <= |ps|
    ensures (forall k :: 0 <= k < |ps| ==> KnownStatus(ps[k])) ==>
              CountWhere(ps, HasStatus(APPROVED)) + CountWhere(ps, HasStatus(PENDING))
              + CountWhere(ps, HasStatus(REJECTED)) == |ps|
  {
    if ps != [] {
      StatusesPartition(ps[1..]);
    }
  }

  /** The figures of a list of projects: its length, the count per status and the sums of
      views and likes. */
  function ComputeStats(ps: seq<Project>): (st: Stats)
    ensures st.total == |ps|
    ensures st.approved + st.pending + st.rejected <= st.total
    ensures (forall k :: 0 <= k < |ps| ==> KnownStatus(ps[k])) ==>
              st.approved + st.pending + st.rejected == st.total
  {
    StatusesPartition(ps);
    Stats(
      |ps|,
      CountWhere(ps, HasStatus(APPROVED)),
      CountWhere(ps, HasStatus(PENDING)),
      CountWhere(ps, HasStatus(REJECTED)),
      SumOf(ps, Views),
      SumOf(ps, Likes))
  }

  /** `loadProjects`: the listed projects and their figures. The figures, computed over the
      newest-first list, are those of the selected projects in store order. */
  function LoadDashboard(s: Store, user: User): (r: (seq<Project>, Stats))
    ensures r.0 == UserProjects(s, user)
    ensures var scope := Scope(s, user);
            && r.1.total == |scope|
            && r.1.approved == CountWhere(scope, HasStatus(APPROVED))
            && r.1.pending == CountWhere(scope, HasStatus(PENDING))
            && r.1.rejected == CountWhere(scope, HasStatus(REJECTED))
            && r.1.totalViews == SumOf(scope, Views)
            && r.1.totalLikes == SumOf(scope, Likes)
  {
    var ps := UserProjects(s, user);
    var scope := Scope(s, user);
    assert |ps| == |multiset(ps)| == |multiset(scope)| == |scope|;
    CountWherePermutation(ps, scope, HasStatus(APPROVED));
    CountWherePermutation(ps, scope, HasStatus(PENDING));
    CountWherePermutation(ps, scope, HasStatus(REJECTED));
    SumOfPermutation(ps, scope, Views);
    SumOfPermutation(ps, scope, Likes);
    (ps, ComputeStats(ps))
  }

  /** Each of the user's figures is at most the matching figure of the whole store. */
  lemma StatsWithinAnalytics(s: Store, user: User)
    ensures var st, a := LoadDashboard(s, user).1, GetAnalytics(s);
            && st.total <= a.totalProjects
            && st.approved <= a.approvedProjects
            && st.pending <= a.pendingProjects
            && st.rejected <= a.rejectedProjects
            && st.totalViews <= a.totalViews
            && st.totalLikes <= a.totalLikes
  {
    ScopeWithinStore(s, user, HasStatus(APPROVED));
    ScopeWithinStore(s, user, HasStatus(PENDING));
    ScopeWithinStore(s, user, HasStatus(REJECTED));
  }

  /** Every count and sum over the dashboard's scope is at most the one over the store. */
  lemma ScopeWithinStore(s: Store, user: User, test: Project -> bool)
    ensures |Scope(s, user)| <= |s.projects|
    ensures CountWhere(Scope(s, user), test) <= CountWhere(s.projects, test)
    ensures SumOf(Scope(s, user), Views) <= SumOf(s.projects, Views)
    ensures SumOf(Scope(s, user), Likes) <= SumOf(s.projects, Likes)
  {
    if user.id != "" {
      var owned := OwnedBy(user.id);
      CountWhereWhereAtMost(s.projects, owned, test);
      SumOfWhereAtMost(s.projects, owned, Views);
      SumOfWhereAtMost(s.projects, owned, Likes);
    }
  }

  /** A user whose id is the empty string sees the figures of the whole store. */
  lemma EmptyIdSeesEverything(s: Store, user: User)
    requires user.id == ""
    ensures var st, a := LoadDashboard(s, user).1, GetAnalytics(s);
            && st.total == a.totalProjects
            && st.approved == a.approvedProjects
            && st.pending == a.pendingProjects
            && st.rejected == a.rejectedProjects
            && st.totalViews == a.totalViews
            && st.totalLikes == a.totalLikes
  {
  }
}

=== FILE: home.dfy ===
/** The public listing (src/pages/Home.js): the filter built from the selected category and
    the search box, and the projects it fetches. */
module Home {
  import opened Optional
  import opened Seqs
  import opened Records
  import opened Sorting
  import opened Storage

  /** The category choice that means "no category constraint". */
  const ALL_CATEGORIES: string := "all"

  /** `{ status: 'approved', ...(category !== 'all' && { category }), ...(searchTerm && { search }) }`. */
  function HomeFilter(category: string, searchTerm: string): (f: Filter)
    ensures f.status == Some(APPROVED) && f.userId.None?
    ensures f.category.Some? <==> category != ALL_CATEGORIES
    ensures f.category.Some? ==> f.category.value == category
    ensures f.search.Some? <==> searchTerm != ""
    ensures f.search.Some? ==> f.search.value == searchTerm
  {
    var base := NO_FILTER.(status := Some(APPROVED));
    var withCategory := if category != ALL_CATEGORIES then base.(category := Some(category)) else base;
    if searchTerm != "" then withCategory.(search := Some(searchTerm)) else withCategory
  }

  /** `loadProjects`: only approved projects, narrowed by the category unless it is "all" (or
      empty) and by the search term unless it is empty, newest first; projects created at the
      same instant keep their store order, and each appears as often as in the store. */
  function LoadHomeProjects(s: Store, category: string, searchTerm: string): (r: seq<Project>)
    ensures forall p :: p in r <==>
              && p in s.projects
              && p.status == APPROVED
              && (category != ALL_CATEGORIES && category != "" ==> p.category == category)
              && (searchTerm != "" ==> SearchHit(searchTerm, p))
    ensures NewestFirst(r)
    ensures r == SortNewestFirst(Where(s.projects, MatchesFilter(HomeFilter(category, searchTerm))))
  {
    GetProjectsIsStable(s, HomeFilter(category, searchTerm), 0);
    GetProjects(s, HomeFilter(category, searchTerm))
  }

  /** With every category and no search term, the listing is all approved projects, newest
      first, projects of equal creation time in store order. */
  lemma DefaultListing(s: Store)
    ensures LoadHomeProjects(s, ALL_CATEGORIES, "") == SortNewestFirst(Where(s.projects, HasStatus(APPROVED)))
  {
    var f := HomeFilter(ALL_CATEGORIES, "");
    GetProjectsIsStable(s, f, 0);
    WhereSame(s.projects, MatchesFilter(f), HasStatus(APPROVED));
  }

  /** Narrowing by a category or a search term never adds a project to the default listing. */
  lemma NarrowingOnlyRemoves(s: Store, category: string, searchTerm: string)
    ensures forall p :: p in LoadHomeProjects(s, category, searchTerm) ==> p in LoadHomeProjects(s, ALL_CATEGORIES, "")
  {
  }
}

=== FILE: optional.dfy ===
/** A value that may be missing: JavaScript's `undefined`/`null` for a field or a lookup. */
module Optional {

  datatype Option<T> = None | Some(value: T) {

    /** The carried value, or `fallback` when there is none (JavaScript's `x ?? fallback`). */
    function Or(fallback: T): T {
      match this
      case Some(v) => v
      case None => fallback
    }
  }
}

=== FILE: records.dfy ===
/** The records the in-memory store keeps (src/utils/storage.js): users, projects, the
    partial objects callers pass to create and update them, and the store itself. */
module Records {
  import opened Optional

  const ROLE_ADMIN: string := "admin"
  const ROLE_USER: string := "user"

  const APPROVED: string := "approved"
  const PENDING: string := "pending"
  const REJECTED: string := "rejected"

  /** A registered account. The password is kept and compared in clear text. */
  datatype User = User(
    id: string,
    name: string,
    email: string,
    password: string,
    role: string,
    createdAt: int)

  /** A submitted project. `userName` is a snapshot of the owner's name at submission time;
      `createdAt` is a timestamp in milliseconds, ordered as the source's dates are. */
  datatype Project = Project(
    id: string,
    title: string,
    description: string,
    category: string,
    technologies: seq<string>,
    githubUrl: string,
    liveUrl: string,
    image: string,
    userId: string,
    userName: string,
    status: string,
    likes: nat,
    views: nat,
    createdAt: int)

  /** A partial user object: the fields a caller chose to supply. */
  datatype UserFields = UserFields(
    id: Option<string>,
    name: Option<string>,
    email: Option<string>,
    password: Option<string>,
    role: Option<string>,
    createdAt: Option<int>)

  /** A partial project object: the fields a caller chose to supply. */
  datatype ProjectFields = ProjectFields(
    id: Option<string>,
    title: Option<string>,
    description: Option<string>,
    category: Option<string>,
    technologies: Option<seq<string>>,
    githubUrl: Option<string>,
    liveUrl: Option<string>,
    image: Option<string>,
    userId: Option<string>,
    userName: Option<string>,
    status: Option<string>,
    likes: Option<nat>,
    views: Option<nat>,
    createdAt: Option<int>)

  const NO_PROJECT_FIELDS: ProjectFields :=
    ProjectFields(None, None, None, None, None, None, None, None, None, None, None, None, None, None)

  /** `{ ...u, ...d }`: every supplied field replaces the stored one, the rest are kept. */
  function MergeUser(u: User, d: UserFields): User
  {
    User(
      d.id.Or(u.id),
      d.name.Or(u.name),
      d.email.Or(u.email),
      d.password.Or(u.password),
      d.role.Or(u.role),
      d.createdAt.Or(u.createdAt))
  }

  /** `{ ...p, ...d }`: every supplied field replaces the stored one, the rest are kept. */
  function MergeProject(p: Project, d: ProjectFields): Project
  {
    Project(
      d.id.Or(p.id),
      d.title.Or(p.title),
      d.description.Or(p.description),
      d.category.Or(p.category),
      d.technologies.Or(p.technologies),
      d.githubUrl.Or(p.githubUrl),
      d.liveUrl.Or(p.liveUrl),
      d.image.Or(p.image),
      d.userId.Or(p.userId),
      d.userName.Or(p.userName),
      d.status.Or(p.status),
      d.likes.Or(p.likes),
      d.views.Or(p.views),
      d.createdAt.Or(p.createdAt))
  }

  /** The whole in-memory store: both collections in insertion order and the session slot. */
  datatype Store = Store(users: seq<User>, projects: seq<Project>, currentUser: Option<User>)

  /** The options `getProjects` reads. An absent field, or the empty string, imposes nothing. */
  datatype Filter = Filter(
    status: Option<string>,
    userId: Option<string>,
    category: Option<string>,
    search: Option<string>)

  const NO_FILTER: Filter := Filter(None, None, None, None)

  /** JavaScript truthiness of an optional string field: present and not empty. */
  predicate Truthy(o: Option<string>)
  {
    o.Some? && o.value != ""
  }

  function HasStatus(status: string): Project -> bool
  {
    (p: Project) => p.status == status
  }

  function OwnedBy(userId: string): Project -> bool
  {
    (p: Project) => p.userId == userId
  }

  function ProjectHasId(id: string): Project -> bool
  {
    (p: Project) => p.id == id
  }

  function UserHasId(id: string): User -> bool
  {
    (u: User) => u.id == id
  }

  function UserHasEmail(email: string): User -> bool
  {
    (u: User) => u.email == email
  }

  function Views(p: Project): nat
  {
    p.views
  }

  function Likes(p: Project): nat
  {
    p.likes
  }
}

=== FILE: seed.dfy ===
/** The store as `initializeStorage` fills it (src/utils/storage.js): one administrator and
    three approved sample projects, with creation times counted back from `now`. */
module Seed {
  import opened Optional
  import opened Seqs
  import opened Records
  import opened Sorting
  import opened Storage
  import AuthContext
  import Home

  const DAY_MS: int := 86400000

  const ADMIN: User := User("1", "Admin User", "admin@powerfolio.com", "admin123", ROLE_ADMIN, 0)

  function SampleProject(id: string, title: string, category: string, likes: nat, views: nat, createdAt: int): Project
  {
    Project(id, title, "", category, [], "", "", "", "1", "Admin User", APPROVED, likes, views, createdAt)
  }

  /** The seeded store; descriptions, technologies and links are left empty here. */
  function InitialStore(now: int): (s: Store)
    ensures |s.users| == 1 && |s.projects| == 3 && s.currentUser.None?
  {
    Store(
      [ADMIN.(createdAt := now)],
      [ SampleProject("1", "AI-Powered Chat Application", "Web Development", 45, 230, now - DAY_MS * 5),
        SampleProject("2", "E-Commerce Dashboard", "Full Stack", 67, 412, now - DAY_MS * 3),
        SampleProject("3", "Mobile Fitness Tracker", "Mobile Development", 89, 567, now - DAY_MS * 7) ],
      None)
  }

  /** The seeded administrator can log in, and the session is an admin session. */
  lemma AdminCanLogIn(now: int)
    ensures var c := AuthContext.Mount(InitialStore(now));
            var (c', r) := AuthContext.ContextLogin(c, "admin@powerfolio.com", "admin123");
            r.Success? && AuthContext.IsAdmin(c')
  {
    var s := InitialStore(now);
    assert IsFirst(s.users, UserHasEmail("admin@powerfolio.com"), 0);
  }

  lemma SumOfThree(a: Project, b: Project, c: Project, f: Project -> nat)
    ensures SumOf([a, b, c], f) == f(a) + f(b) + f(c)
  {
    assert [a, b, c][1..] == [b, c] && [b, c][1..] == [c] && [c][1..] == [];
    assert SumOf([c], f) == f(c);
    assert SumOf([b, c], f) == f(b) + f(c);
  }

  /** The analytics of the seeded store. */
  lemma InitialAnalytics(now: int)
    ensures var a := GetAnalytics(InitialStore(now));
            && a.totalProjects == 3 && a.approvedProjects == 3
            && a.pendingProjects == 0 && a.rejectedProjects == 0
            && a.totalUsers == 1 && a.totalViews == 1209 && a.totalLikes == 201
  {
    var ps := InitialStore(now).projects;
    SumOfThree(ps[0], ps[1], ps[2], Views);
    SumOfThree(ps[0], ps[1], ps[2], Likes);
    WhereAll(ps, HasStatus(APPROVED));
    WhereNone(ps, HasStatus(PENDING));
    WhereNone(ps, HasStatus(REJECTED));
  }

  /** Three projects whose creation times run middle, newest, oldest. */
  lemma SortThree(a: Project, b: Project, c: Project)
    requires b.createdAt > a.createdAt > c.createdAt
    ensures SortNewestFirst([a, b, c]) == [b, a, c]
  {
    assert SortNewestFirst([c]) == [c] by {
      assert [c][1..] == [];
    }
    assert SortNewestFirst([b, c]) == [b, c] by {
      assert [b, c][1..] == [c];
      assert Insert(b, [c]) == [b] + [c];
    }
    assert Insert(a, [b, c]) == [b, a, c] by {
      assert [b, c][1..] == [c];
      assert Insert(a, [c]) == [a] + [c];
    }
    assert [a, b, c][1..] == [b, c];
  }

  /** The home page lists the seeded projects newest first: 2, then 1, then 3. */
  lemma InitialHomeOrder(now: int)
    ensures var ps := InitialStore(now).projects;
            Home.LoadHomeProjects(InitialStore(now), Home.ALL_CATEGORIES, "") == [ps[1], ps[0], ps[2]]
  {
    var ps := InitialStore(now).projects;
    Home.DefaultListing(InitialStore(now));
    WhereAll(ps, HasStatus(APPROVED));
    SortThree(ps[0], ps[1], ps[2]);
  }
}

=== FILE: seqs.dfy ===
/** Order-preserving filters, counts, sums and first-match search over sequences:
    the `Array.prototype` helpers (`filter`, `findIndex`, `reduce`) the application leans on. */
module Seqs {
  import opened Optional

  /** The elements of `xs` that satisfy `keep`, in their original order (`xs.filter(keep)`). */
  function Where<T>(xs: seq<T>, keep: T -> bool): (r: seq<T>)
    ensures |r| <= |xs|
  {
    if xs == [] then []
    else (if keep(xs[0]) then [xs[0]] else []) + Where(xs[1..], keep)
  }

  /** The filter keeps exactly the elements that pass, as many times as they occur. */
  lemma {:induction false} WhereMembers<T>(xs: seq<T>, keep: T -> bool)
    ensures forall x :: x in Where(xs, keep) <==> x in xs && keep(x)
    ensures multiset(Where(xs, keep)) <= multiset(xs)
  {
    if xs != [] {
      WhereMembers(xs[1..], keep);
      assert xs == [xs[0]] + xs[1..];
    }
  }

  /** Every element the filter keeps passes the filter and has any property all inputs have. */
  lemma {:induction false} WhereKeeps<T>(xs: seq<T>, keep: T -> bool, has: T -> bool)
    requires forall k :: 0 <= k < |xs| ==> has(xs[k])
    ensures forall k :: 0 <= k < |Where(xs, keep)| ==> keep(Where(xs, keep)[k]) && has(Where(xs, keep)[k])
  {
    if xs != [] {
      WhereKeeps(xs[1..], keep, has);
    }
  }

  /** Filtering by a predicate that holds of no element leaves nothing. */
  lemma {:induction false} WhereNone<T>(xs: seq<T>, keep: T -> bool)
    requires forall k :: 0 <= k < |xs| ==> !keep(xs[k])
    ensures Where(xs, keep) == []
  {
    if xs != [] {
      WhereNone(xs[1..], keep);
    }
  }

  /** Filtering by a predicate that holds of every element keeps the sequence as it is. */
  lemma {:induction false} WhereAll<T>(xs: seq<T>, keep: T -> bool)
    requires forall x :: x in xs ==> keep(x)
    ensures Where(xs, keep) == xs
  {
    if xs != [] {
      assert forall x :: x in xs[1..] ==> x in xs;
      WhereAll(xs[1..], keep);
    }
  }

  /** Filters by two predicates that agree on every element give the same result. */
  lemma {:induction false} WhereSame<T>(xs: seq<T>, p: T -> bool, q: T -> bool)
    requires forall x :: x in xs ==> p(x) == q(x)
    ensures Where(xs, p) == Where(xs, q)
  {
    if xs != [] {
      assert forall x :: x in xs[1..] ==> x in xs;
      WhereSame(xs[1..], p, q);
    }
  }

  lemma WhereCons<T>(x: T, xs: seq<T>, keep: T -> bool)
    ensures Where([x] + xs, keep) == (if keep(x) then [x] else []) + Where(xs, keep)
  {
    assert ([x] + xs)[1..] == xs;
  }

  /** `xs` can be had from `ys` by deleting elements: the relative order of `ys` is kept. */
  predicate SubsequenceOf<T(==)>(xs: seq<T>, ys: seq<T>)
    decreases |ys|
  {
    if ys == [] then xs == []
    else SubsequenceOf(xs, ys[1..]) || (xs != [] && xs[0] == ys[0] && SubsequenceOf(xs[1..], ys[1..]))
  }

  /** A filter keeps the relative order of what it keeps. */
  lemma {:induction false} WhereIsSubsequence<T>(xs: seq<T>, keep: T -> bool)
    ensures SubsequenceOf(Where(xs, keep), xs)
  {
    if xs != [] {
      var rest := Where(xs[1..], keep);
      WhereIsSubsequence(xs[1..], keep);
      if keep(xs[0]) {
        var w := [xs[0]] + rest;
        assert Where(xs, keep) == w;
        assert w[0] == xs[0] && w[1..] == rest;
      } else {
        assert Where(xs, keep) == rest;
      }
    }
  }

  lemma {:induction false} WhereConcat<T>(a: seq<T>, b: seq<T>, keep: T -> bool)
    ensures Where(a + b, keep) == Where(a, keep) + Where(b, keep)
  {
    if a == [] {
      assert a + b == b;
    } else {
      var head := if keep(a[0]) then [a[0]] else [];
      assert (a + b)[0] == a[0];
      assert (a + b)[1..] == a[1..] + b;
      calc {
        Where(a + b, keep);
        head + Where(a[1..] + b, keep);
        { WhereConcat(a[1..], b, keep); }
        head + (Where(a[1..], keep) + Where(b, keep));
        (head + Where(a[1..], keep)) + Where(b, keep);
      }
    }
  }

  /** `xs.map(f)`. */
  function Map<A, B>(xs: seq<A>, f: A -> B): (r: seq<B>)
    ensures |r| == |xs| && forall k :: 0 <= k < |xs| ==> r[k] == f(xs[k])
  {
    seq(|xs|, k requires 0 <= k < |xs| => f(xs[k]))
  }

  lemma MapConcat<A, B>(a: seq<A>, b: seq<A>, f: A -> B)
    ensures Map(a + b, f) == Map(a, f) + Map(b, f)
  {
    var left, right := Map(a + b, f), Map(a, f) + Map(b, f);
    forall k | 0 <= k < |left|
      ensures left[k] == right[k]
    {
      if k < |a| {
        assert (a + b)[k] == a[k];
      } else {
        assert (a + b)[k] == b[k - |a|];
      }
    }
  }

  /** Two first elements with the same image give the same mapped sequence. */
  lemma MapSameHead<A, B>(x: A, y: A, rest: seq<A>, f: A -> B)
    requires f(x) == f(y)
    ensures Map([x] + rest, f) == Map([y] + rest, f)
  {
    var left, right := Map([x] + rest, f), Map([y] + rest, f);
    forall k | 0 <= k < |left|
      ensures left[k] == right[k]
    {
      if k > 0 {
        assert ([x] + rest)[k] == ([y] + rest)[k];
      }
    }
  }

  /** Sum of `f` over `xs` (`xs.reduce((sum, x) => sum + f(x), 0)`). */
  function SumOf<T>(xs: seq<T>, f: T -> nat): nat
  {
    if xs == [] then 0 else f(xs[0]) + SumOf(xs[1..], f)
  }

  /** Turns a test into the 0/1 function whose sum counts the elements that pass. */
  function Indicator<T>(keep: T -> bool): T -> nat
  {
    x => if keep(x) then 1 else 0
  }

  /** How many elements of `xs` satisfy `keep` (`xs.filter(keep).length`). */
  function CountWhere<T>(xs: seq<T>, keep: T -> bool): (n: nat)
    ensures n == |Where(xs, keep)|
    ensures n == SumOf(xs, Indicator(keep))
    ensures n <= |xs|
  {
    if xs == [] then 0 else (if keep(xs[0]) then 1 else 0) + CountWhere(xs[1..], keep)
  }

  lemma {:induction false} SumOfConcat<T>(a: seq<T>, b: seq<T>, f: T -> nat)
    ensures SumOf(a + b, f) == SumOf(a, f) + SumOf(b, f)
  {
    if a == [] {
      assert a + b == b;
    } else {
      assert (a + b)[1..] == a[1..] + b;
      SumOfConcat(a[1..], b, f);
    }
  }

  /** Removing the element at `i` takes exactly its own contribution off the sum. */
  lemma SumOfRemove<T>(xs: seq<T>, i: nat, f: T -> nat)
    requires i < |xs|
    ensures SumOf(xs, f) == f(xs[i]) + SumOf(xs[..i] + xs[i + 1..], f)
  {
    var (before, after) := (xs[..i], xs[i + 1..]);
    var tail := [xs[i]] + after;
    assert xs == before + tail;
    assert tail[0] == xs[i] && tail[1..] == after;
    calc {
      SumOf(xs, f);
      { SumOfConcat(before, tail, f); }
      SumOf(before, f) + SumOf(tail, f);
      SumOf(before, f) + (f(xs[i]) + SumOf(after, f));
      { SumOfConcat(before, after, f); }
      f(xs[i]) + SumOf(before + after, f);
    }
  }

  /** Taking out the element at `i` takes one occurrence of it out of the multiset. */
  lemma MultisetRemove<T>(xs: seq<T>, i: nat)
    requires i < |xs|
    ensures multiset(xs[..i] + xs[i + 1..]) == multiset(xs) - multiset{xs[i]}
  {
    assert xs == xs[..i] + [xs[i]] + xs[i + 1..];
  }

  /** In a permutation of `xs`, some position holds `xs[0]`, and the rest is a permutation
      of `xs[1..]`. */
  lemma PickFirst<T>(xs: seq<T>, ys: seq<T>) returns (i: nat)
    requires xs != [] && multiset(xs) == multiset(ys)
    ensures i < |ys| && ys[i] == xs[0]
    ensures multiset(xs[1..]) == multiset(ys[..i] + ys[i + 1..])
  {
    assert xs[0] in ys by {
      assert xs[0] in multiset(ys);
    }
    i :| 0 <= i < |ys| && ys[i] == xs[0];
    calc {
      multiset(xs[1..]);
      { assert xs == [xs[0]] + xs[1..]; }
      multiset(xs) - multiset{xs[0]};
      multiset(ys) - multiset{ys[i]};
      { MultisetRemove(ys, i); }
      multiset(ys[..i] + ys[i + 1..]);
    }
  }

  /** A sum does not depend on the order of the elements: any permutation has the same sum. */
  lemma {:induction false} SumOfPermutation<T>(xs: seq<T>, ys: seq<T>, f: T -> nat)
    requires multiset(xs) == multiset(ys)
    ensures SumOf(xs, f) == SumOf(ys, f)
    decreases |xs|
  {
    if xs == [] {
      assert |ys| == |multiset(ys)| == 0;
    } else {
      var i := PickFirst(xs, ys);
      SumOfPermutation(xs[1..], ys[..i] + ys[i + 1..], f);
      SumOfRemove(ys, i, f);
    }
  }

  /** Counting does not depend on the order of the elements either. */
  lemma CountWherePermutation<T>(xs: seq<T>, ys: seq<T>, keep: T -> bool)
    requires multiset(xs) == multiset(ys)
    ensures CountWhere(xs, keep) == CountWhere(ys, keep)
  {
    SumOfPermutation(xs, ys, Indicator(keep));
  }

  /** A filtered sequence sums to no more than the whole. */
  lemma {:induction false} SumOfWhereAtMost<T>(xs: seq<T>, keep: T -> bool, f: T -> nat)
    ensures SumOf(Where(xs, keep), f) <= SumOf(xs, f)
  {
    if xs != [] {
      SumOfWhereAtMost(xs[1..], keep, f);
      SumOfConcat(if keep(xs[0]) then [xs[0]] else [], Where(xs[1..], keep), f);
    }
  }

  /** Counting among a filtered sequence counts no more than among the whole. */
  lemma CountWhereWhereAtMost<T>(xs: seq<T>, keep: T -> bool, test: T -> bool)
    ensures CountWhere(Where(xs, keep), test) <= CountWhere(xs, test)
  {
    SumOfWhereAtMost(xs, keep, Indicator(test));
  }

  /** `ys` is `xs` with the element at `i` replaced by `y`, and nothing else changed. */
  predicate ReplacedAt<T(==)>(xs: seq<T>, ys: seq<T>, i: int, y: T)
  {
    && |ys| == |xs|
    && 0 <= i < |xs|
    && ys[i] == y
    && forall j :: 0 <= j < |xs| && j != i ==> ys[j] == xs[j]
  }

  /** `ys` is `xs` with the element at `i` taken out; the others keep their order. */
  predicate RemovedAt<T(==)>(xs: seq<T>, ys: seq<T>, i: int)
  {
    && 0 <= i < |xs|
    && |ys| == |xs| - 1
    && (forall j :: 0 <= j < i ==> ys[j] == xs[j])
    && (forall j :: i <= j < |ys| ==> ys[j] == xs[j + 1])
  }

  /** `i` is the first position of `xs` whose element passes `hit`. */
  predicate IsFirst<T>(xs: seq<T>, hit: T -> bool, i: int)
  {
    0 <= i < |xs| && hit(xs[i]) && forall j :: 0 <= j < i ==> !hit(xs[j])
  }

  /** Position of the first element that passes `hit` (`xs.findIndex(hit)`, with `None` for -1). */
  function FirstIndex<T>(xs: seq<T>, hit: T -> bool): (r: Option<nat>)
    ensures r.Some? ==> IsFirst(xs, hit, r.value)
    ensures r.None? <==> forall j :: 0 <= j < |xs| ==> !hit(xs[j])
  {
    if xs == [] then None
    else if hit(xs[0]) then Some(0)
    else
      match FirstIndex(xs[1..], hit)
      case None => None
      case Some(i) => Some(i + 1)
  }

  /** At most one position is the first match. */
  lemma FirstIsUnique<T>(xs: seq<T>, hit: T -> bool, i: int, k: int)
    requires IsFirst(xs, hit, i) && IsFirst(xs, hit, k)
    ensures i == k
  {
  }

  /** The element `xs.find(hit)` returns: the first one that passes. */
  function Find<T>(xs: seq<T>, hit: T -> bool): (r: Option<T>)
    ensures r.None? <==> forall j :: 0 <= j < |xs| ==> !hit(xs[j])
    ensures r.Some? ==> exists i :: IsFirst(xs, hit, i) && xs[i] == r.value
    ensures forall i :: IsFirst(xs, hit, i) ==> r == Some(xs[i])
  {
    match FirstIndex(xs, hit)
    case None => None
    case Some(i) => Some(xs[i])
  }
}

=== FILE: sorting.dfy ===
/** The ordering `getProjects` applies: a stable sort by `createdAt`, newest first
    (src/utils/storage.js:147; `Array.prototype.sort` is stable). */
module Sorting {
  import opened Seqs
  import opened Records

  /** `createdAt` never increases along the sequence. */
  predicate NewestFirst(ps: seq<Project>)
  {
    forall i, j :: 0 <= i < j < |ps| ==> ps[i].createdAt >= ps[j].createdAt
  }

  /** The projects created at instant `t`, in the order they appear in `ps`. */
  function CreatedAtTime(ps: seq<Project>, t: int): seq<Project>
  {
    if ps == [] then []
    else (if ps[0].createdAt == t then [ps[0]] else []) + CreatedAtTime(ps[1..], t)
  }

  /** Puts `p` in front of the first element that is not newer than it, so that `p`
      stays ahead of everything created at the same instant. */
  function Insert(p: Project, ps: seq<Project>): seq<Project>
  {
    if ps == [] || ps[0].createdAt <= p.createdAt then [p] + ps
    else [ps[0]] + Insert(p, ps[1..])
  }

  lemma {:induction false} InsertPermutes(p: Project, ps: seq<Project>)
    ensures multiset(Insert(p, ps)) == multiset(ps) + multiset{p}
  {
    if ps != [] && ps[0].createdAt > p.createdAt {
      InsertPermutes(p, ps[1..]);
      assert ps == [ps[0]] + ps[1..];
    }
  }

  /** Inserting under a bound keeps every creation time under it. */
  lemma {:induction false} InsertAtMost(p: Project, ps: seq<Project>, bound: int)
    requires p.createdAt <= bound
    requires forall k :: 0 <= k < |ps| ==> ps[k].createdAt <= bound
    ensures forall k :: 0 <= k < |Insert(p, ps)| ==> Insert(p, ps)[k].createdAt <= bound
  {
    if ps != [] && ps[0].createdAt > p.createdAt {
      InsertAtMost(p, ps[1..], bound);
    }
  }

  lemma {:induction false} InsertKeepsOrder(p: Project, ps: seq<Project>)
    requires NewestFirst(ps)
    ensures NewestFirst(Insert(p, ps))
  {
    if ps != [] && ps[0].createdAt > p.createdAt {
      var tail := Insert(p, ps[1..]);
      assert NewestFirst(ps[1..]);
      InsertKeepsOrder(p, ps[1..]);
      InsertAtMost(p, ps[1..], ps[0].createdAt);
      var r := [ps[0]] + tail;
      forall i, j | 0 <= i < j < |r|
        ensures r[i].createdAt >= r[j].createdAt
      {
        assert r[j] == tail[j - 1];
        if i > 0 {
          assert r[i] == tail[i - 1];
        }
      }
    }
  }

  /** The projects of `ps` ordered newest first; projects created at the same instant keep
      their relative order. */
  function SortNewestFirst(ps: seq<Project>): (r: seq<Project>)
    ensures NewestFirst(r)
    ensures multiset(r) == multiset(ps)
  {
    if ps == [] then []
    else
      var sorted := SortNewestFirst(ps[1..]);
      InsertKeepsOrder(ps[0], sorted);
      InsertPermutes(ps[0], sorted);
      assert ps == [ps[0]] + ps[1..];
      Insert(ps[0], sorted)
  }

  lemma CreatedAtTimeCons(x: Project, xs: seq<Project>, t: int)
    ensures CreatedAtTime([x] + xs, t) == (if x.createdAt == t then [x] else []) + CreatedAtTime(xs, t)
  {
    assert ([x] + xs)[1..] == xs;
  }

  lemma {:induction false} InsertByTime(p: Project, ps: seq<Project>, t: int)
    ensures CreatedAtTime(Insert(p, ps), t) ==
              (if p.createdAt == t then [p] else []) + CreatedAtTime(ps, t)
  {
    if ps == [] || ps[0].createdAt <= p.createdAt {
      CreatedAtTimeCons(p, ps, t);
    } else {
      var tail := Insert(p, ps[1..]);
      var head := if ps[0].createdAt == t then [ps[0]] else [];
      var mine := if p.createdAt == t then [p] else [];
      InsertByTime(p, ps[1..], t);
      CreatedAtTimeCons(ps[0], tail, t);
      assert ps == [ps[0]] + ps[1..];
      CreatedAtTimeCons(ps[0], ps[1..], t);
      assert head == [] || mine == [];
      calc {
        CreatedAtTime(Insert(p, ps), t);
        head + CreatedAtTime(tail, t);
        head + (mine + CreatedAtTime(ps[1..], t));
        mine + (head + CreatedAtTime(ps[1..], t));
        mine + CreatedAtTime(ps, t);
      }
    }
  }

  /** Stability: for every instant, the projects created then come out in their input order. */
  lemma {:induction false} SortIsStable(ps: seq<Project>, t: int)
    ensures CreatedAtTime(SortNewestFirst(ps), t) == CreatedAtTime(ps, t)
  {
    if ps != [] {
      SortIsStable(ps[1..], t);
      InsertByTime(ps[0], SortNewestFirst(ps[1..]), t);
    }
  }

  /** An already ordered sequence is left as it is. */
  lemma {:induction false} SortOfSorted(ps: seq<Project>)
    requires NewestFirst(ps)
    ensures SortNewestFirst(ps) == ps
  {
    if ps != [] {
      SortOfSorted(ps[1..]);
    }
  }

  /** Filtering keeps a sequence ordered newest first. */
  lemma {:induction false} WhereKeepsOrder(ps: seq<Project>, keep: Project -> bool)
    requires NewestFirst(ps)
    ensures NewestFirst(Where(ps, keep))
  {
    if ps != [] {
      WhereKeepsOrder(ps[1..], keep);
      var rest := Where(ps[1..], keep);
      WhereMembers(ps[1..], keep);
      assert forall k :: 0 <= k < |rest| ==> rest[k] in ps[1..];
    }
  }
}

=== FILE: storage.dfy ===
/** The in-memory data layer of src/utils/storage.js: lookups, the project query, create /
    update / delete of users and projects, the view and like counters, authentication over
    the single session slot, and the analytics summary. Every operation takes the store and
    returns the store it leaves behind together with what the source returns. Generated ids
    (`Date.now().toString()`) and timestamps (`new Date()`) are parameters. */
module Storage {
  import opened Optional
  import opened Seqs
  import opened Text
  import opened Records
  import opened Sorting

  const INVALID_CREDENTIALS: string := "Invalid email or password"
  const EMAIL_ALREADY_REGISTERED: string := "Email already registered"

  /** `{ success: true, user }` or `{ success: false, message }`. */
  datatype AuthResult = Success(user: User) | Failure(message: string)

  /** The summary `getAnalytics` returns. */
  datatype Analytics = Analytics(
    totalProjects: nat,
    approvedProjects: nat,
    pendingProjects: nat,
    rejectedProjects: nat,
    totalUsers: nat,
    totalViews: nat,
    totalLikes: nat)

  // ---------------------------------------------------------------- lookups

  /** `getUserById`: the first user with that id. */
  function GetUserById(users: seq<User>, id: string): (r: Option<User>)
    ensures r.None? <==> forall j :: 0 <= j < |users| ==> users[j].id != id
    ensures r.Some? ==> exists i :: IsFirst(users, UserHasId(id), i) && users[i] == r.value
  {
    Find(users, UserHasId(id))
  }

  /** `getUserByEmail`: the first user with that email. */
  function GetUserByEmail(users: seq<User>, email: string): (r: Option<User>)
    ensures r.None? <==> forall j :: 0 <= j < |users| ==> users[j].email != email
    ensures r.Some? ==> exists i :: IsFirst(users, UserHasEmail(email), i) && users[i] == r.value
  {
    Find(users, UserHasEmail(email))
  }

  /** `getProjectById`: the first project with that id. */
  function GetProjectById(projects: seq<Project>, id: string): (r: Option<Project>)
    ensures r.None? <==> forall j :: 0 <= j < |projects| ==> projects[j].id != id
    ensures r.Some? ==> exists i :: IsFirst(projects, ProjectHasId(id), i) && projects[i] == r.value
  {
    Find(projects, ProjectHasId(id))
  }

  // ---------------------------------------------------------------- the project query

  /** The search predicate: the lower-cased term occurs in the lower-cased title, in the
      lower-cased description, or in some lower-cased technology. */
  predicate SearchHit(search: string, p: Project)
  {
    var needle := Lower(search);
    || Includes(Lower(p.title), needle)
    || Includes(Lower(p.description), needle)
    || exists t :: t in p.technologies && Includes(Lower(t), needle)
  }

  function SearchFor(search: string): Project -> bool
  {
    (p: Project) => SearchHit(search, p)
  }

  function InCategory(category: string): Project -> bool
  {
    (p: Project) => p.category == category
  }

  /** Reference meaning of a filter: `p` satisfies every predicate whose field is truthy. */
  predicate Matches(f: Filter, p: Project)
  {
    && (Truthy(f.status) ==> p.status == f.status.value)
    && (Truthy(f.userId) ==> p.userId == f.userId.value)
    && (Truthy(f.category) ==> p.category == f.category.value)
    && (Truthy(f.search) ==> SearchHit(f.search.value, p))
  }

  function MatchesFilter(f: Filter): Project -> bool
  {
    (p: Project) => Matches(f, p)
  }

  /** One stage of the query: narrow by `keep` when the filter field is truthy. */
  function Stage(ps: seq<Project>, on: bool, keep: Project -> bool): seq<Project>
  {
    if on then Where(ps, keep) else ps
  }

  /** The four stages of `getProjects`, in the order the source applies them. */
  function Narrow(ps: seq<Project>, f: Filter): seq<Project>
  {
    var a := Stage(ps, Truthy(f.status), HasStatus(f.status.Or("")));
    var b := Stage(a, Truthy(f.userId), OwnedBy(f.userId.Or("")));
    var c := Stage(b, Truthy(f.category), InCategory(f.category.Or("")));
    Stage(c, Truthy(f.search), SearchFor(f.search.Or("")))
  }

  lemma StageConcat(a: seq<Project>, b: seq<Project>, on: bool, keep: Project -> bool)
    ensures Stage(a + b, on, keep) == Stage(a, on, keep) + Stage(b, on, keep)
  {
    if on {
      WhereConcat(a, b, keep);
    }
  }

  /** The stages work element by element, so they distribute over concatenation. */
  lemma NarrowConcat(a: seq<Project>, b: seq<Project>, f: Filter)
    ensures Narrow(a + b, f) == Narrow(a, f) + Narrow(b, f)
  {
    var status, owner := HasStatus(f.status.Or("")), OwnedBy(f.userId.Or(""));
    var category, search := InCategory(f.category.Or("")), SearchFor(f.search.Or(""));
    StageConcat(a, b, Truthy(f.status), status);
    var a1, b1 := Stage(a, Truthy(f.status), status), Stage(b, Truthy(f.status), status);
    StageConcat(a1, b1, Truthy(f.userId), owner);
    var a2, b2 := Stage(a1, Truthy(f.userId), owner), Stage(b1, Truthy(f.userId), owner);
    StageConcat(a2, b2, Truthy(f.category), category);
    var a3, b3 := Stage(a2, Truthy(f.category), category), Stage(b2, Truthy(f.category), category);
    StageConcat(a3, b3, Truthy(f.search), search);
  }

  lemma StageSingle(x: Project, on: bool, keep: Project -> bool)
    ensures Stage([x], on, keep) == if on && !keep(x) then [] else [x]
  {
    WhereCons(x, [], keep);
  }

  /** A single project passes all four stages exactly when it matches the filter. */
  lemma NarrowSingle(x: Project, f: Filter)
    ensures Narrow([x], f) == if Matches(f, x) then [x] else []
  {
    var status, owner := HasStatus(f.status.Or("")), OwnedBy(f.userId.Or(""));
    var category, search := InCategory(f.category.Or("")), SearchFor(f.search.Or(""));
    StageSingle(x, Truthy(f.status), status);
    var a := Stage([x], Truthy(f.status), status);
    if a == [x] {
      StageSingle(x, Truthy(f.userId), owner);
      var b := Stage(a, Truthy(f.userId), owner);
      if b == [x] {
        StageSingle(x, Truthy(f.category), category);
        var c := Stage(b, Truthy(f.category), category);
        if c == [x] {
          StageSingle(x, Truthy(f.search), search);
        }
      }
    }
  }

  /** Narrowing stage by stage keeps exactly the projects that match the whole filter, in
      store order. */
  lemma {:induction false} NarrowIsWhereMatches(ps: seq<Project>, f: Filter)
    ensures Narrow(ps, f) == Where(ps, MatchesFilter(f))
  {
    if ps != [] {
      assert ps == [ps[0]] + ps[1..];
      NarrowConcat([ps[0]], ps[1..], f);
      NarrowSingle(ps[0], f);
      NarrowIsWhereMatches(ps[1..], f);
      WhereCons(ps[0], ps[1..], MatchesFilter(f));
    }
  }

  /** `getProjects(filter)`: the projects that satisfy every truthy field of the filter,
      newest first. The store itself is not changed. */
  function GetProjects(s: Store, f: Filter): (r: seq<Project>)
    ensures forall p :: p in r <==> p in s.projects && Matches(f, p)
    ensures multiset(r) == multiset(Where(s.projects, MatchesFilter(f)))
    ensures NewestFirst(r)
  {
    var narrowed := Narrow(s.projects, f);
    NarrowIsWhereMatches(s.projects, f);
    var r := SortNewestFirst(narrowed);
    assert forall p :: p in r <==> p in s.projects && Matches(f, p) by {
      WhereMembers(s.projects, MatchesFilter(f));
      forall p
        ensures p in r <==> p in s.projects && Matches(f, p)
      {
        calc {
          p in r;
          p in multiset(r);
          p in multiset(narrowed);
          p in narrowed;
        }
      }
    }
    r
  }

  /** The query result is the stable newest-first ordering of the matching projects, so
      projects created at the same instant keep their store order. */
  lemma GetProjectsIsStable(s: Store, f: Filter, t: int)
    ensures GetProjects(s, f) == SortNewestFirst(Where(s.projects, MatchesFilter(f)))
    ensures CreatedAtTime(GetProjects(s, f), t) == CreatedAtTime(Where(s.projects, MatchesFilter(f)), t)
  {
    NarrowIsWhereMatches(s.projects, f);
    SortIsStable(Where(s.projects, MatchesFilter(f)), t);
  }

  /** The empty filter keeps every project. */
  lemma EmptyFilterKeepsAll(s: Store)
    ensures multiset(GetProjects(s, NO_FILTER)) == multiset(s.projects)
    ensures NewestFirst(s.projects) ==> GetProjects(s, NO_FILTER) == s.projects
  {
    WhereAll(s.projects, MatchesFilter(NO_FILTER));
    NarrowIsWhereMatches(s.projects, NO_FILTER);
    if NewestFirst(s.projects) {
      SortOfSorted(s.projects);
    }
  }

  /** A filter field holding the empty string is falsy and imposes nothing. */
  lemma EmptyStringIsNoConstraint(s: Store, f: Filter)
    ensures GetProjects(s, f.(status := Some(""))) == GetProjects(s, f.(status := None))
    ensures GetProjects(s, f.(userId := Some(""))) == GetProjects(s, f.(userId := None))
    ensures GetProjects(s, f.(category := Some(""))) == GetProjects(s, f.(category := None))
    ensures GetProjects(s, f.(search := Some(""))) == GetProjects(s, f.(search := None))
  {
  }

  /** `needle` is a contiguous slice of `hay`. */
  ghost predicate IsSubstring(needle: string, hay: string)
  {
    exists i :: OccursAt(hay, needle, i)
  }

  /** The search predicate, stated with substrings rather than the scanning `includes`. */
  lemma SearchHitIff(search: string, p: Project)
    ensures SearchHit(search, p) <==>
              || IsSubstring(Lower(search), Lower(p.title))
              || IsSubstring(Lower(search), Lower(p.description))
              || exists t :: t in p.technologies && IsSubstring(Lower(search), Lower(t))
  {
    var needle := Lower(search);
    IncludesIff(Lower(p.title), needle);
    IncludesIff(Lower(p.description), needle);
    forall t | t in p.technologies
      ensures Includes(Lower(t), needle) <==> IsSubstring(needle, Lower(t))
    {
      IncludesIff(Lower(t), needle);
    }
  }

  /** Search ignores the case of the term. */
  lemma SearchIgnoresCase(search: string, p: Project)
    ensures SearchHit(Lower(search), p) == SearchHit(search, p)
  {
    LowerIdempotent(search);
  }

  // ---------------------------------------------------------------- users

  /** `createUser`: the generated id unless the caller supplies one, then the caller's
      fields, then `role: 'user'` and the creation time, which no caller can override.
      A field the caller omits is stored as the empty string. */
  function CreateUser(s: Store, data: UserFields, freshId: string, now: int): (r: (Store, User))
    ensures r.0.users == s.users + [r.1]
    ensures r.0.projects == s.projects && r.0.currentUser == s.currentUser
    ensures r.1.role == ROLE_USER && r.1.createdAt == now
    ensures r.1.id == (if data.id.Some? then data.id.value else freshId)
    ensures data.name.Some? ==> r.1.name == data.name.value
    ensures data.email.Some? ==> r.1.email == data.email.value
    ensures data.password.Some? ==> r.1.password == data.password.value
  {
    var u := MergeUser(User(freshId, "", "", "", ROLE_USER, now), data).(role := ROLE_USER, createdAt := now);
    (s.(users := s.users + [u]), u)
  }

  /** `updateUser`: merges the supplied fields into the first user with that id; `null` and
      no change when there is none. */
  function UpdateUser(s: Store, id: string, d: UserFields): (r: (Store, Option<User>))
    ensures (forall j :: 0 <= j < |s.users| ==> s.users[j].id != id) ==> r == (s, None)
    ensures forall i :: IsFirst(s.users, UserHasId(id), i) ==>
              && ReplacedAt(s.users, r.0.users, i, MergeUser(s.users[i], d))
              && r.1 == Some(MergeUser(s.users[i], d))
    ensures r.0.projects == s.projects && r.0.currentUser == s.currentUser
  {
    match FirstIndex(s.users, UserHasId(id))
    case None => (s, None)
    case Some(i) =>
      var u := MergeUser(s.users[i], d);
      (s.(users := s.users[i := u]), Some(u))
  }

  /** `deleteUser`: removes the first user with that id. The user's projects stay. */
  function DeleteUser(s: Store, id: string): (r: (Store, bool))
    ensures !r.1 <==> forall j :: 0 <= j < |s.users| ==> s.users[j].id != id
    ensures !r.1 ==> r.0 == s
    ensures forall i :: IsFirst(s.users, UserHasId(id), i) ==> RemovedAt(s.users, r.0.users, i)
    ensures r.0.projects == s.projects && r.0.currentUser == s.currentUser
  {
    match FirstIndex(s.users, UserHasId(id))
    case None => (s, false)
    case Some(i) => (s.(users := s.users[..i] + s.users[i + 1..]), true)
  }

  /** Deleting a user leaves every project query as it was, dangling owner ids included. */
  lemma DeleteUserKeepsProjects(s: Store, id: string, f: Filter)
    ensures GetProjects(DeleteUser(s, id).0, f) == GetProjects(s, f)
  {
  }

  // ---------------------------------------------------------------- projects

  /** `createProject`: the generated id unless the caller supplies one, then the caller's
      fields, then `status: 'pending'`, zero likes and views and the creation time, which
      no caller can override. A content field the caller omits is stored empty. */
  function CreateProject(s: Store, data: ProjectFields, freshId: string, now: int): (r: (Store, Project))
    ensures r.0.projects == s.projects + [r.1]
    ensures r.0.users == s.users && r.0.currentUser == s.currentUser
    ensures r.1.status == PENDING && r.1.likes == 0 && r.1.views == 0 && r.1.createdAt == now
    ensures r.1.id == (if data.id.Some? then data.id.value else freshId)
    ensures data.title.Some? ==> r.1.title == data.title.value
    ensures data.description.Some? ==> r.1.description == data.description.value
    ensures data.category.Some? ==> r.1.category == data.category.value
    ensures data.technologies.Some? ==> r.1.technologies == data.technologies.value
    ensures data.githubUrl.Some? ==> r.1.githubUrl == data.githubUrl.value
    ensures data.liveUrl.Some? ==> r.1.liveUrl == data.liveUrl.value
    ensures data.image.Some? ==> r.1.image == data.image.value
    ensures data.userId.Some? ==> r.1.userId == data.userId.value
    ensures data.userName.Some? ==> r.1.userName == data.userName.value
  {
    var blank := Project(freshId, "", "", "", [], "", "", "", "", "", PENDING, 0, 0, now);
    var p := MergeProject(blank, data).(status := PENDING, likes := 0, views := 0, createdAt := now);
    (s.(projects := s.projects + [p]), p)
  }

  /** Whatever status, counters and timestamp the caller passes, the created project is the same. */
  lemma CreateProjectForcesModeration(s: Store, data: ProjectFields, freshId: string, now: int,
                                      status: Option<string>, likes: Option<nat>, views: Option<nat>, createdAt: Option<int>)
    ensures CreateProject(s, data.(status := status, likes := likes, views := views, createdAt := createdAt), freshId, now)
         == CreateProject(s, data, freshId, now)
  {
  }

  /** A project created under an id no other project has is what a lookup by that id finds. */
  lemma CreateThenGet(s: Store, data: ProjectFields, freshId: string, now: int)
    requires GetProjectById(s.projects, CreateProject(s, data, freshId, now).1.id).None?
    ensures var (s', p) := CreateProject(s, data, freshId, now);
            GetProjectById(s'.projects, p.id) == Some(p)
  {
    var (s', p) := CreateProject(s, data, freshId, now);
    assert IsFirst(s'.projects, ProjectHasId(p.id), |s.projects|);
  }

  /** `updateProject`: merges the supplied fields into the first project with that id;
      `null` and no change when there is none. No business rule is re-checked. */
  function UpdateProject(s: Store, id: string, d: ProjectFields): (r: (Store, Option<Project>))
    ensures (forall j :: 0 <= j < |s.projects| ==> s.projects[j].id != id) ==> r == (s, None)
    ensures forall i :: IsFirst(s.projects, ProjectHasId(id), i) ==>
              && ReplacedAt(s.projects, r.0.projects, i, MergeProject(s.projects[i], d))
              && r.1 == Some(MergeProject(s.projects[i], d))
    ensures r.0.users == s.users && r.0.currentUser == s.currentUser
  {
    match FirstIndex(s.projects, ProjectHasId(id))
    case None => (s, None)
    case Some(i) =>
      var p := MergeProject(s.projects[i], d);
      (s.(projects := s.projects[i := p]), Some(p))
  }

  /** `deleteProject`: removes the first project with that id. */
  function DeleteProject(s: Store, id: string): (r: (Store, bool))
    ensures !r.1 <==> forall j :: 0 <= j < |s.projects| ==> s.projects[j].id != id
    ensures !r.1 ==> r.0 == s
    ensures forall i :: IsFirst(s.projects, ProjectHasId(id), i) ==> RemovedAt(s.projects, r.0.projects, i)
    ensures r.0.users == s.users && r.0.currentUser == s.currentUser
  {
    match FirstIndex(s.projects, ProjectHasId(id))
    case None => (s, false)
    case Some(i) => (s.(projects := s.projects[..i] + s.projects[i + 1..]), true)
  }

  /** Deleting removes exactly one of the projects carrying that id. */
  lemma DeleteProjectRemovesOne(s: Store, id: string)
    requires DeleteProject(s, id).1
    ensures CountWhere(DeleteProject(s, id).0.projects, ProjectHasId(id)) ==
            CountWhere(s.projects, ProjectHasId(id)) - 1
  {
    var i := FirstIndex(s.projects, ProjectHasId(id)).value;
    SumOfRemove(s.projects, i, Indicator(ProjectHasId(id)));
  }

  /** `incrementProjectViews`: one more view on the first project with that id. */
  function IncrementProjectViews(s: Store, id: string): (r: Store)
    ensures (forall j :: 0 <= j < |s.projects| ==> s.projects[j].id != id) ==> r == s
    ensures forall i :: IsFirst(s.projects, ProjectHasId(id), i) ==>
              ReplacedAt(s.projects, r.projects, i, s.projects[i].(views := s.projects[i].views + 1))
    ensures r.users == s.users && r.currentUser == s.currentUser
  {
    match GetProjectById(s.projects, id)
    case None => s
    case Some(p) =>
      var r := UpdateProject(s, id, NO_PROJECT_FIELDS.(views := Some(p.views + 1))).0;
      assert forall i :: IsFirst(s.projects, ProjectHasId(id), i) ==>
               MergeProject(s.projects[i], NO_PROJECT_FIELDS.(views := Some(p.views + 1)))
               == s.projects[i].(views := s.projects[i].views + 1);
      r
  }

  /** `toggleProjectLike`: one more like on the first project with that id, whoever asks;
      returns the new count, or 0 when there is no such project. */
  function ToggleProjectLike(s: Store, projectId: string, userId: string): (r: (Store, nat))
    ensures (forall j :: 0 <= j < |s.projects| ==> s.projects[j].id != projectId) ==> r == (s, 0)
    ensures forall i :: IsFirst(s.projects, ProjectHasId(projectId), i) ==>
              && r.1 == s.projects[i].likes + 1
              && ReplacedAt(s.projects, r.0.projects, i, s.projects[i].(likes := r.1))
    ensures r.0.users == s.users && r.0.currentUser == s.currentUser
  {
    match GetProjectById(s.projects, projectId)
    case None => (s, 0)
    case Some(p) =>
      var likes := p.likes + 1;
      (UpdateProject(s, projectId, NO_PROJECT_FIELDS.(likes := Some(likes))).0, likes)
  }

  /** The like is not tied to the user: every user gets the same effect. */
  lemma LikeIgnoresUser(s: Store, projectId: string, u1: string, u2: string)
    ensures ToggleProjectLike(s, projectId, u1) == ToggleProjectLike(s, projectId, u2)
  {
  }

  /** A count of 0 is returned exactly when there is no such project. */
  lemma LikeReturnsZeroOnlyWhenMissing(s: Store, projectId: string, userId: string)
    ensures ToggleProjectLike(s, projectId, userId).1 == 0 <==> GetProjectById(s.projects, projectId).None?
  {
    if GetProjectById(s.projects, projectId).Some? {
      var i := FirstIndex(s.projects, ProjectHasId(projectId)).value;
      assert IsFirst(s.projects, ProjectHasId(projectId), i);
    }
  }

  /** Neither `likes` nor `views` of any project goes down. */
  predicate CountersKept(before: seq<Project>, after: seq<Project>)
  {
    && |after| == |before|
    && forall j :: 0 <= j < |before| ==>
         after[j].likes >= before[j].likes && after[j].views >= before[j].views
  }

  /** Replacing one project by one with counters at least as high keeps every counter. */
  lemma ReplacedKeepsCounters(before: seq<Project>, after: seq<Project>, i: int, q: Project)
    requires ReplacedAt(before, after, i, q)
    requires q.likes >= before[i].likes && q.views >= before[i].views
    ensures CountersKept(before, after)
  {
  }

  lemma CountersNeverDecrease(s: Store, id: string, userId: string)
    ensures CountersKept(s.projects, IncrementProjectViews(s, id).projects)
    ensures CountersKept(s.projects, ToggleProjectLike(s, id, userId).0.projects)
  {
    match FirstIndex(s.projects, ProjectHasId(id))
    case None =>
    case Some(i) =>
      var p := s.projects[i];
      var viewed := IncrementProjectViews(s, id).projects;
      var liked := ToggleProjectLike(s, id, userId);
      assert ReplacedAt(s.projects, viewed, i, p.(views := p.views + 1));
      ReplacedKeepsCounters(s.projects, viewed, i, p.(views := p.views + 1));
      assert ReplacedAt(s.projects, liked.0.projects, i, p.(likes := liked.1));
      ReplacedKeepsCounters(s.projects, liked.0.projects, i, p.(likes := liked.1));
  }

  // ---------------------------------------------------------------- session

  /** `login`: succeeds when the first user with that email has exactly that password, and
      only then sets the session. Both failures give the same message. */
  function Login(s: Store, email: string, password: string): (r: (Store, AuthResult))
    ensures r.1.Success? <==>
              exists i :: IsFirst(s.users, UserHasEmail(email), i) && s.users[i].password == password
    ensures forall i :: IsFirst(s.users, UserHasEmail(email), i) && s.users[i].password == password ==>
              r == (s.(currentUser := Some(s.users[i])), Success(s.users[i]))
    ensures r.1.Failure? ==> r == (s, Failure(INVALID_CREDENTIALS))
  {
    match GetUserByEmail(s.users, email)
    case Some(u) =>
      if u.password == password then (s.(currentUser := Some(u)), Success(u))
      else (s, Failure(INVALID_CREDENTIALS))
    case None => (s, Failure(INVALID_CREDENTIALS))
  }

  /** An unknown email and a wrong password cannot be told apart. */
  lemma LoginDoesNotLeakEmails(s: Store, unknown: string, known: string, p1: string, p2: string)
    requires GetUserByEmail(s.users, unknown).None?
    requires GetUserByEmail(s.users, known).Some? && GetUserByEmail(s.users, known).value.password != p2
    ensures Login(s, unknown, p1) == Login(s, known, p2)
  {
  }

  /** `logout`: the session is cleared, whatever it held. */
  function Logout(s: Store): (r: Store)
    ensures r.currentUser.None?
    ensures r.users == s.users && r.projects == s.projects
  {
    s.(currentUser := None)
  }

  /** The source looks the email up with `find`; a missing email matches no stored user. */
  predicate EmailTaken(users: seq<User>, email: Option<string>)
  {
    email.Some? && exists j :: 0 <= j < |users| && users[j].email == email.value
  }

  /** `signup`: fails on an email already registered, changing nothing; otherwise creates the
      user (as a plain user) and makes it the session user. */
  function Signup(s: Store, data: UserFields, freshId: string, now: int): (r: (Store, AuthResult))
    ensures EmailTaken(s.users, data.email) ==> r == (s, Failure(EMAIL_ALREADY_REGISTERED))
    ensures !EmailTaken(s.users, data.email) ==>
              && r.1.Success?
              && r.0.users == s.users + [r.1.user]
              && r.0.projects == s.projects
              && r.0.currentUser == Some(r.1.user)
              && r.1.user.role == ROLE_USER
              && r.1.user == CreateUser(s, data, freshId, now).1
  {
    if data.email.Some? && GetUserByEmail(s.users, data.email.value).Some? then
      (s, Failure(EMAIL_ALREADY_REGISTERED))
    else
      var (created, u) := CreateUser(s, data, freshId, now);
      (created.(currentUser := Some(u)), Success(u))
  }

  /** Right after signing up, the same email and password log in as the new user. */
  lemma SignupThenLogin(s: Store, data: UserFields, freshId: string, now: int)
    requires data.email.Some? && data.password.Some?
    requires Signup(s, data, freshId, now).1.Success?
    ensures var (s', r) := Signup(s, data, freshId, now);
            Login(s', data.email.value, data.password.value) == (s', Success(r.user))
  {
    var (s', r) := Signup(s, data, freshId, now);
    assert IsFirst(s'.users, UserHasEmail(data.email.value), |s.users|);
  }

  // ---------------------------------------------------------------- analytics

  /** `getAnalytics`: counted over the result of `getProjects()` (a newest-first copy); the
      figures equal those of the store in its own order. */
  function GetAnalytics(s: Store): (a: Analytics)
    ensures a.totalProjects == |s.projects| && a.totalUsers == |s.users|
    ensures a.approvedProjects == CountWhere(s.projects, HasStatus(APPROVED))
    ensures a.pendingProjects == CountWhere(s.projects, HasStatus(PENDING))
    ensures a.rejectedProjects == CountWhere(s.projects, HasStatus(REJECTED))
    ensures a.totalViews == SumOf(s.projects, Views)
    ensures a.totalLikes == SumOf(s.projects, Likes)
  {
    var ps := GetProjects(s, NO_FILTER);
    EmptyFilterKeepsAll(s);
    CountWherePermutation(ps, s.projects, HasStatus(APPROVED));
    CountWherePermutation(ps, s.projects, HasStatus(PENDING));
    CountWherePermutation(ps, s.projects, HasStatus(REJECTED));
    SumOfPermutation(ps, s.projects, Views);
    SumOfPermutation(ps, s.projects, Likes);
    assert |ps| == |multiset(ps)| == |multiset(s.projects)| == |s.projects|;
    Analytics(
      |ps|,
      CountWhere(ps, HasStatus(APPROVED)),
      CountWhere(ps, HasStatus(PENDING)),
      CountWhere(ps, HasStatus(REJECTED)),
      |s.users|,
      SumOf(ps, Views),
      SumOf(ps, Likes))
  }
}

=== FILE: submit_project.dfy ===
/** The decision rules of the project form (src/pages/SubmitProject.js): parsing the
    comma-separated technologies, required-field validation, the record a submission
    builds, the owner check that guards editing, and the canned "AI" text enhancements. */
module SubmitProject {
  import opened Optional
  import opened Seqs
  import opened Text
  import opened Records
  import opened Storage

  /** The form fields; `technologies` is the raw comma-separated text. */
  datatype Form = Form(
    title: string,
    description: string,
    category: string,
    technologies: string,
    githubUrl: string,
    liveUrl: string,
    image: string)

  const INITIAL_FORM: Form := Form("", "", "Web Development", "", "", "", "")

  const SAMPLE_IMAGES: seq<string> := [
    "https://images.unsplash.com/photo-1498050108023-c5249f4df085?w=800",
    "https://images.unsplash.com/photo-1461749280684-dccba630e2f6?w=800",
    "https://images.unsplash.com/photo-1484417894907-623942c8ee29?w=800",
    "https://images.unsplash.com/photo-1487058792275-0ad4aaf24ca7?w=800",
    "https://images.unsplash.com/photo-1517694712202-14dd9538aa97?w=800"
  ]

  const REQUIRED_FIELDS_MISSING: string := "Please fill in all required fields"
  const PROJECT_UPDATED: string := "Project updated successfully! Redirecting..."
  const PROJECT_SUBMITTED: string :=
    "Project submitted successfully! Awaiting admin approval. Redirecting..."

  /** The separator the edit form uses to show a project's technologies. */
  const TECH_SEPARATOR: string := ", "

  const TITLE_PREFIX: string := "\U{1F680} "
  const TITLE_SUFFIX: string := " - Next-Gen Solution"
  const FEATURE_BLOCK: string :=
    "\n\nKey Features:\n- Modern & Responsive Design\n- High Performance Optimized\n- User-Friendly Interface\n- Scalable Architecture"

  // ---------------------------------------------------------------- technologies

  function IsNonEmpty(t: string): bool
  {
    t != ""
  }

  /** `xs.map(t => t.trim())`. */
  function TrimAll(xs: seq<string>): seq<string>
  {
    Map(xs, Trim)
  }

  /** A trimmed piece free of commas. */
  predicate CleanPiece(t: string)
  {
    Trimmed(t) && ',' !in t
  }

  /** The pieces of a comma split, once trimmed, are clean. */
  lemma TrimmedPiecesAreClean(raw: string)
    ensures forall k :: 0 <= k < |TrimAll(Split(raw, ','))| ==> CleanPiece(TrimAll(Split(raw, ','))[k])
  {
    var pieces := Split(raw, ',');
    SplitPieces(raw, ',');
    forall k | 0 <= k < |pieces|
      ensures CleanPiece(Trim(pieces[k]))
    {
      TrimChars(pieces[k]);
    }
  }

  /** `raw.split(',').map(t => t.trim()).filter(t => t)`. */
  function ParseTechnologies(raw: string): (r: seq<string>)
    ensures forall k :: 0 <= k < |r| ==> r[k] != "" && CleanPiece(r[k])
  {
    var trimmed := TrimAll(Split(raw, ','));
    TrimmedPiecesAreClean(raw);
    WhereKeeps(trimmed, IsNonEmpty, CleanPiece);
    Where(trimmed, IsNonEmpty)
  }

  /** Order is kept: the technologies before a comma come before those after it. */
  lemma ParseConcat(a: string, b: string)
    ensures ParseTechnologies(a + "," + b) == ParseTechnologies(a) + ParseTechnologies(b)
  {
    SplitConcat(a, ',', b);
    MapConcat(Split(a, ','), Split(b, ','), Trim);
    WhereConcat(TrimAll(Split(a, ',')), TrimAll(Split(b, ',')), IsNonEmpty);
  }

  /** A text without commas is one technology (or none, if it is blank). */
  lemma ParseSingle(t: string)
    requires ',' !in t
    ensures ParseTechnologies(t) == if Trim(t) == "" then [] else [Trim(t)]
  {
    SplitWithoutSeparator(t, ',');
    WhereCons(Trim(t), [], IsNonEmpty);
  }

  /** White space in front of the text does not change the parse. */
  lemma ParseSkipsLeadingSpace(c: char, raw: string)
    requires IsSpace(c) && c != ','
    ensures ParseTechnologies([c] + raw) == ParseTechnologies(raw)
  {
    var pieces := Split(raw, ',');
    SplitCons(c, raw, ',');
    assert pieces == [pieces[0]] + pieces[1..];
    TrimSkipsLeadingSpace(c, pieces[0]);
    MapSameHead([c] + pieces[0], pieces[0], pieces[1..], Trim);
  }

  /** Technologies as the edit form stores them: non-empty, trimmed and free of commas. */
  predicate CleanTechnologies(ts: seq<string>)
  {
    forall k :: 0 <= k < |ts| ==> ts[k] != "" && CleanPiece(ts[k])
  }

  /** A clean technology on its own parses to itself. */
  lemma ParseClean(t: string)
    requires t != "" && CleanPiece(t)
    ensures ParseTechnologies(t) == [t]
  {
    ParseSingle(t);
    TrimOfTrimmed(t);
  }

  /** A clean technology followed by `", "` contributes exactly itself. */
  lemma ParseAfterSeparator(head: string, rest: string)
    requires head != "" && CleanPiece(head)
    ensures ParseTechnologies(head + TECH_SEPARATOR + rest) == [head] + ParseTechnologies(rest)
  {
    var spaced := [' '] + rest;
    calc {
      ParseTechnologies(head + TECH_SEPARATOR + rest);
      { assert head + TECH_SEPARATOR + rest == head + "," + spaced; }
      ParseTechnologies(head + "," + spaced);
      { ParseConcat(head, spaced); }
      ParseTechnologies(head) + ParseTechnologies(spaced);
      { ParseClean(head); }
      [head] + ParseTechnologies(spaced);
      { ParseSkipsLeadingSpace(' ', rest); }
      [head] + ParseTechnologies(rest);
    }
  }

  /** Round trip: parsing the `", "`-joined list the edit form shows gives the list back. */
  lemma {:induction false} ParseJoinRoundTrip(ts: seq<string>)
    requires CleanTechnologies(ts)
    ensures ParseTechnologies(Join(ts, TECH_SEPARATOR)) == ts
  {
    if |ts| == 0 {
      ParseSingle("");
    } else if |ts| == 1 {
      ParseClean(ts[0]);
    } else {
      var rest := ts[1..];
      assert CleanTechnologies(rest) by {
        forall k | 0 <= k < |rest|
          ensures rest[k] != "" && CleanPiece(rest[k])
        {
          assert rest[k] == ts[k + 1];
        }
      }
      assert Join(ts, TECH_SEPARATOR) == ts[0] + TECH_SEPARATOR + Join(rest, TECH_SEPARATOR);
      ParseAfterSeparator(ts[0], Join(rest, TECH_SEPARATOR));
      ParseJoinRoundTrip(rest);
      assert ts == [ts[0]] + rest;
    }
  }

  /** Text made only of commas and spaces is not empty, so it passes validation, yet it
      yields no technology at all. */
  lemma CommasAndSpacesParseToNothing(raw: string)
    requires forall k :: 0 <= k < |raw| ==> raw[k] == ',' || raw[k] == ' '
    ensures ParseTechnologies(raw) == []
  {
    var pieces := Split(raw, ',');
    SplitPieces(raw, ',');
    forall k | 0 <= k < |pieces|
      ensures Trim(pieces[k]) == ""
    {
      forall j | 0 <= j < |pieces[k]|
        ensures IsSpace(pieces[k][j])
      {
        var c := pieces[k][j];
        assert c in pieces[k];
        var i :| 0 <= i < |raw| && raw[i] == c;
      }
      TrimOfAllSpace(pieces[k]);
    }
    var trimmed := TrimAll(pieces);
    WhereNone(trimmed, IsNonEmpty);
  }

  // ---------------------------------------------------------------- submission

  /** The validation of `handleSubmit`: title, description and raw technologies are required. */
  function MissingRequired(f: Form): (b: bool)
    ensures !b <==> Truthy(Some(f.title)) && Truthy(Some(f.description)) && Truthy(Some(f.technologies))
    ensures f == INITIAL_FORM ==> b
  {
    f.title == "" || f.description == "" || f.technologies == ""
  }

  /** The object `handleSubmit` hands to the store: the form fields, the parsed technologies,
      the session user as owner and the first sample image when no image was given. */
  function ProjectData(f: Form, user: User): (d: ProjectFields)
    ensures d.title == Some(f.title) && d.description == Some(f.description)
    ensures d.category == Some(f.category)
    ensures d.githubUrl == Some(f.githubUrl) && d.liveUrl == Some(f.liveUrl)
    ensures d.userId == Some(user.id) && d.userName == Some(user.name)
    ensures d.image == Some(if f.image == "" then SAMPLE_IMAGES[0] else f.image)
    ensures d.technologies == Some(ParseTechnologies(f.technologies))
    ensures d.id.None? && d.status.None? && d.likes.None? && d.views.None? && d.createdAt.None?
  {
    NO_PROJECT_FIELDS.(
      title := Some(f.title),
      description := Some(f.description),
      category := Some(f.category),
      technologies := Some(ParseTechnologies(f.technologies)),
      githubUrl := Some(f.githubUrl),
      liveUrl := Some(f.liveUrl),
      image := Some(if f.image == "" then SAMPLE_IMAGES[0] else f.image),
      userId := Some(user.id),
      userName := Some(user.name))
  }

  datatype Outcome = Rejected(error: string) | Saved(success: string)

  /** `handleSubmit`: rejects an incomplete form without touching the store; otherwise
      updates the project being edited, or creates a new (pending) one. */
  function HandleSubmit(s: Store, f: Form, user: User, editId: Option<string>,
                        freshId: string, now: int): (r: (Store, Outcome))
    ensures MissingRequired(f) ==> r == (s, Rejected(REQUIRED_FIELDS_MISSING))
    ensures !MissingRequired(f) && Truthy(editId) ==>
              && r.1 == Saved(PROJECT_UPDATED)
              && r.0.users == s.users && r.0.currentUser == s.currentUser
              && |r.0.projects| == |s.projects|
              && ((forall j :: 0 <= j < |s.projects| ==> s.projects[j].id != editId.value) ==> r.0 == s)
              && forall i :: IsFirst(s.projects, ProjectHasId(editId.value), i) ==>
                   ReplacedAt(s.projects, r.0.projects, i, MergeProject(s.projects[i], ProjectData(f, user)))
    ensures !MissingRequired(f) && !Truthy(editId) ==>
              && r.1 == Saved(PROJECT_SUBMITTED)
              && r.0.users == s.users && r.0.currentUser == s.currentUser
              && |r.0.projects| == |s.projects| + 1
              && r.0.projects[..|s.projects|] == s.projects
              && var p := r.0.projects[|s.projects|];
                 && p.id == freshId
                 && p.status == PENDING && p.likes == 0 && p.views == 0 && p.createdAt == now
                 && p.title == f.title && p.description == f.description && p.category == f.category
                 && p.githubUrl == f.githubUrl && p.liveUrl == f.liveUrl
                 && p.userId == user.id && p.userName == user.name
                 && p.technologies == ParseTechnologies(f.technologies)
                 && p.image == (if f.image == "" then SAMPLE_IMAGES[0] else f.image)
  {
    if MissingRequired(f) then (s, Rejected(REQUIRED_FIELDS_MISSING))
    else if Truthy(editId) then
      (UpdateProject(s, editId.value, ProjectData(f, user)).0, Saved(PROJECT_UPDATED))
    else
      var (created, _) := CreateProject(s, ProjectData(f, user), freshId, now);
      assert created.projects[..|s.projects|] == s.projects;
      (created, Saved(PROJECT_SUBMITTED))
  }

  /** Editing replaces the content and owner fields of the first project with that id, keeps
      its id, status, counters and creation time, and leaves every other project as it was.
      An id that matches no project leaves the store as it is, and the page still reports
      success. */
  lemma EditKeepsModeration(s: Store, f: Form, user: User, editId: string, freshId: string, now: int)
    requires !MissingRequired(f) && editId != ""
    ensures var r := HandleSubmit(s, f, user, Some(editId), freshId, now);
            && r.1 == Saved(PROJECT_UPDATED)
            && ((forall j :: 0 <= j < |s.projects| ==> s.projects[j].id != editId) ==> r.0 == s)
            && forall i :: IsFirst(s.projects, ProjectHasId(editId), i) ==>
                 var (before, after) := (s.projects[i], r.0.projects[i]);
                 && ReplacedAt(s.projects, r.0.projects, i, after)
                 && after.id == before.id && after.status == before.status
                 && after.likes == before.likes && after.views == before.views
                 && after.createdAt == before.createdAt
                 && after.title == f.title && after.description == f.description
                 && after.category == f.category
                 && after.technologies == ParseTechnologies(f.technologies)
                 && after.githubUrl == f.githubUrl && after.liveUrl == f.liveUrl
                 && after.image == (if f.image == "" then SAMPLE_IMAGES[0] else f.image)
                 && after.userId == user.id && after.userName == user.name
  {
  }

  // ---------------------------------------------------------------- editing

  datatype EditLoad =
    | KeepForm          // no `edit` parameter: a blank submission form
    | Prefill(form: Form)
    | Redirect          // not found or not the owner: back to the dashboard

  /** The form the edit page shows for a project: its text fields as they are and its
      technologies joined with `", "`, which parse back to the list when it is clean. */
  function FormOf(p: Project): (r: Form)
    ensures r.title == p.title && r.description == p.description && r.category == p.category
    ensures r.githubUrl == p.githubUrl && r.liveUrl == p.liveUrl && r.image == p.image
    ensures r.technologies == Join(p.technologies, TECH_SEPARATOR)
    ensures CleanTechnologies(p.technologies) ==> ParseTechnologies(r.technologies) == p.technologies
  {
    assert CleanTechnologies(p.technologies) ==>
           ParseTechnologies(Join(p.technologies, TECH_SEPARATOR)) == p.technologies by {
      if CleanTechnologies(p.technologies) { ParseJoinRoundTrip(p.technologies); }
    }
    Form(p.title, p.description, p.category, Join(p.technologies, TECH_SEPARATOR),
         p.githubUrl, p.liveUrl, p.image)
  }

  /** The effect of opening the page: with a truthy `edit` id, the form is prefilled only when
      the project exists and belongs to the session user; otherwise the page redirects. */
  function LoadForEdit(s: Store, editId: Option<string>, user: User): (r: EditLoad)
    ensures !Truthy(editId) <==> r.KeepForm?
    ensures r.Prefill? <==>
              Truthy(editId) && exists i :: IsFirst(s.projects, ProjectHasId(editId.value), i)
                                           && s.projects[i].userId == user.id
    ensures r.Prefill? ==> exists i :: IsFirst(s.projects, ProjectHasId(editId.value), i)
                                       && r.form == FormOf(s.projects[i])
  {
    if !Truthy(editId) then KeepForm
    else
      match GetProjectById(s.projects, editId.value)
      case Some(p) => if p.userId == user.id then Prefill(FormOf(p)) else Redirect
      case None => Redirect
  }

  /** The prefilled technologies parse back to the project's own list. */
  lemma PrefillRoundTrip(p: Project, user: User)
    requires CleanTechnologies(p.technologies)
    ensures ProjectData(FormOf(p), user).technologies == Some(p.technologies)
  {
    ParseJoinRoundTrip(p.technologies);
  }

  /** Submitting a project's own form, as its owner, writes back exactly the project. */
  lemma ResubmitKeepsProject(p: Project, user: User)
    requires CleanTechnologies(p.technologies) && p.technologies != []
    requires p.title != "" && p.description != "" && p.image != ""
    requires p.userId == user.id && p.userName == user.name
    ensures !MissingRequired(FormOf(p))
    ensures MergeProject(p, ProjectData(FormOf(p), user)) == p
  {
    PrefillRoundTrip(p, user);
    assert Join(p.technologies, TECH_SEPARATOR) != "" by {
      if Join(p.technologies, TECH_SEPARATOR) == "" {
        ParseJoinRoundTrip(p.technologies);
        ParseSingle("");
      }
    }
  }

  /** A prefilled form is the form of the first project with that id, which the user owns. */
  lemma PrefillIsFormOf(s: Store, editId: string, user: User) returns (i: int)
    requires LoadForEdit(s, Some(editId), user).Prefill?
    ensures IsFirst(s.projects, ProjectHasId(editId), i) && s.projects[i].userId == user.id
    ensures LoadForEdit(s, Some(editId), user).form == FormOf(s.projects[i])
  {
    i := FirstIndex(s.projects, ProjectHasId(editId)).value;
    FirstIsUnique(s.projects, ProjectHasId(editId), i, i);
  }

  /** An edit whose merge gives the project back leaves the store as it was. */
  lemma EditWithoutChange(s: Store, f: Form, user: User, editId: string, freshId: string, now: int, i: int)
    requires !MissingRequired(f) && editId != ""
    requires IsFirst(s.projects, ProjectHasId(editId), i)
    requires MergeProject(s.projects[i], ProjectData(f, user)) == s.projects[i]
    ensures HandleSubmit(s, f, user, Some(editId), freshId, now).0 == s
  {
    var r := HandleSubmit(s, f, user, Some(editId), freshId, now);
    assert ReplacedAt(s.projects, r.0.projects, i, s.projects[i]);
    assert r.0.projects == s.projects;
  }

  /** Submitting the prefilled form unchanged, as its owner, leaves the store as it was. */
  lemma UnchangedEditIsNoOp(s: Store, editId: string, user: User, freshId: string, now: int)
    requires LoadForEdit(s, Some(editId), user).Prefill?
    requires forall i :: IsFirst(s.projects, ProjectHasId(editId), i) ==>
               var p := s.projects[i];
               && CleanTechnologies(p.technologies) && p.technologies != []
               && p.title != "" && p.description != "" && p.image != ""
               && p.userName == user.name
    ensures HandleSubmit(s, LoadForEdit(s, Some(editId), user).form, user, Some(editId), freshId, now).0 == s
  {
    var i := PrefillIsFormOf(s, editId, user);
    ResubmitKeepsProject(s.projects[i], user);
    EditWithoutChange(s, FormOf(s.projects[i]), user, editId, freshId, now, i);
  }

  // ---------------------------------------------------------------- AI enhancement

  /** `enhanceWithAI(field)`: decorates a non-empty title or description; any other request
      leaves the form as it is. */
  function EnhanceWithAI(f: Form, field: string): (r: Form)
    ensures field == "title" && f.title != "" ==>
              && r == f.(title := r.title)
              && |r.title| == |TITLE_PREFIX| + |Trim(f.title)| + |TITLE_SUFFIX|
              && TITLE_PREFIX <= r.title
              && r.title[|TITLE_PREFIX|..|r.title| - |TITLE_SUFFIX|] == Trim(f.title)
              && r.title[|r.title| - |TITLE_SUFFIX|..] == TITLE_SUFFIX
    ensures field == "description" && f.description != "" ==>
              && r == f.(description := r.description)
              && |r.description| == |Trim(f.description)| + |FEATURE_BLOCK|
              && r.description[..|r.description| - |FEATURE_BLOCK|] == Trim(f.description)
              && r.description[|r.description| - |FEATURE_BLOCK|..] == FEATURE_BLOCK
    ensures !(field == "title" && f.title != "") && !(field == "description" && f.description != "") ==>
              r == f
  {
    if field == "title" && f.title != "" then
      var t := TITLE_PREFIX + Trim(f.title) + TITLE_SUFFIX;
      assert t[|TITLE_PREFIX|..|t| - |TITLE_SUFFIX|] == Trim(f.title);
      assert t[|t| - |TITLE_SUFFIX|..] == TITLE_SUFFIX;
      f.(title := t)
    else if field == "description" && f.description != "" then
      var d := Trim(f.description) + FEATURE_BLOCK;
      assert d[..|d| - |FEATURE_BLOCK|] == Trim(f.description);
      assert d[|d| - |FEATURE_BLOCK|..] == FEATURE_BLOCK;
      f.(description := d)
    else f
  }

  /** Enhancing never changes whether the form passes validation: an enhanced title or
      description is never empty, and an empty one is left alone. */
  lemma EnhanceKeepsValidity(f: Form, field: string)
    ensures MissingRequired(EnhanceWithAI(f, field)) <==> MissingRequired(f)
  {
    var r := EnhanceWithAI(f, field);
    if field == "title" && f.title != "" {
      assert |r.title| >= |TITLE_PREFIX| > 0;
    } else if field == "description" && f.description != "" {
      assert |r.description| >= |FEATURE_BLOCK| > 0;
    }
  }
}

=== FILE: text.dfy ===
/** The string operations of JavaScript the application relies on: `toLowerCase`,
    `includes`, `trim`, `split` on one character and `join`. */
module Text {

  /** JavaScript's white space and line terminators, the characters `String.prototype.trim` removes. */
  predicate IsSpace(c: char)
  {
    || c == '\t' || c == '\n' || c == '\U{000B}' || c == '\U{000C}' || c == '\r' || c == ' '
    || c == '\U{00A0}' || c == '\U{1680}' || ('\U{2000}' <= c <= '\U{200A}')
    || c == '\U{2028}' || c == '\U{2029}' || c == '\U{202F}' || c == '\U{205F}'
    || c == '\U{3000}' || c == '\U{FEFF}'
  }

  predicate AllSpace(s: string)
  {
    forall k :: 0 <= k < |s| ==> IsSpace(s[k])
  }

  /** Lower-casing of one character, restricted to the ASCII letters. */
  function LowerChar(c: char): char
  {
    if 'A' <= c <= 'Z' then (c as int + 32) as char else c
  }

  /** `s.toLowerCase()` on the ASCII letters; every other character is kept. */
  function Lower(s: string): (r: string)
    ensures |r| == |s|
    ensures forall k :: 0 <= k < |s| ==> r[k] == LowerChar(s[k])
  {
    seq(|s|, k requires 0 <= k < |s| => LowerChar(s[k]))
  }

  /** Lower-casing twice is lower-casing once. */
  lemma LowerIdempotent(s: string)
    ensures Lower(Lower(s)) == Lower(s)
  {
  }

  /** `hay.includes(needle)`: scans `hay` position by position for `needle`. */
  function Includes(hay: string, needle: string): bool
  {
    needle <= hay || (hay != [] && Includes(hay[1..], needle))
  }

  /** `needle` occurs in `hay` starting at position `i`. */
  predicate OccursAt(hay: string, needle: string, i: int)
  {
    0 <= i && i + |needle| <= |hay| && hay[i..i + |needle|] == needle
  }

  lemma OccursInTail(hay: string, needle: string, i: int)
    requires 1 <= i && hay != []
    ensures OccursAt(hay, needle, i) <==> OccursAt(hay[1..], needle, i - 1)
  {
    if i + |needle| <= |hay| {
      assert hay[1..][i - 1..i - 1 + |needle|] == hay[i..i + |needle|];
    }
  }

  /** `Includes` holds exactly when `needle` occurs as a contiguous slice of `hay`. */
  lemma {:induction false} IncludesIff(hay: string, needle: string)
    ensures Includes(hay, needle) <==> exists i :: OccursAt(hay, needle, i)
  {
    if needle <= hay {
      assert OccursAt(hay, needle, 0);
    } else if hay == [] {
    } else {
      IncludesIff(hay[1..], needle);
      if Includes(hay[1..], needle) {
        var i :| OccursAt(hay[1..], needle, i);
        OccursInTail(hay, needle, i + 1);
      } else {
        forall i | OccursAt(hay, needle, i)
          ensures false
        {
          if i != 0 {
            OccursInTail(hay, needle, i);
          }
        }
      }
    }
  }

  /** `s` has no white space at either end. */
  predicate Trimmed(s: string)
  {
    s == [] || (!IsSpace(s[0]) && !IsSpace(s[|s| - 1]))
  }

  function TrimStart(s: string): (r: string)
    ensures |r| <= |s| && r == s[|s| - |r|..]
    ensures r == [] || !IsSpace(r[0])
  {
    if s != [] && IsSpace(s[0]) then TrimStart(s[1..]) else s
  }

  function TrimEnd(s: string): (r: string)
    ensures |r| <= |s| && r == s[..|r|]
    ensures r == [] || !IsSpace(r[|r| - 1])
  {
    if s != [] && IsSpace(s[|s| - 1]) then TrimEnd(s[..|s| - 1]) else s
  }

  /** What `TrimStart` drops is white space. */
  lemma {:induction false} TrimStartDropsSpace(s: string)
    ensures AllSpace(s[..|s| - |TrimStart(s)|])
  {
    if s != [] && IsSpace(s[0]) {
      TrimStartDropsSpace(s[1..]);
      var n := |s| - |TrimStart(s)|;
      assert forall k :: 1 <= k < n ==> s[..n][k] == s[1..][..n - 1][k - 1];
    }
  }

  /** What `TrimEnd` drops is white space. */
  lemma {:induction false} TrimEndDropsSpace(s: string)
    ensures AllSpace(s[|TrimEnd(s)|..])
  {
    if s != [] && IsSpace(s[|s| - 1]) {
      TrimEndDropsSpace(s[..|s| - 1]);
      var n := |TrimEnd(s)|;
      assert forall k :: 0 <= k < |s| - 1 - n ==> s[n..][k] == s[..|s| - 1][n..][k];
    }
  }

  /** `s.trim()`: removes white space from both ends. */
  function Trim(s: string): (r: string)
    ensures Trimmed(r)
  {
    TrimEnd(TrimStart(s))
  }

  /** The trim is the slice of `s` between a white-space prefix and a white-space suffix. */
  lemma TrimIsSlice(s: string)
    ensures exists i :: 0 <= i && i + |Trim(s)| <= |s| && s[i..i + |Trim(s)|] == Trim(s)
                        && AllSpace(s[..i]) && AllSpace(s[i + |Trim(s)|..])
  {
    var t := TrimStart(s);
    var r := TrimEnd(t);
    var i := |s| - |t|;
    TrimStartDropsSpace(s);
    TrimEndDropsSpace(t);
    assert s[i..i + |r|] == r;
    assert s[i + |r|..] == t[|r|..];
  }

  /** Trimming only removes characters. */
  lemma TrimChars(s: string)
    ensures CharsWithin(Trim(s), s)
  {
    var t := TrimStart(s);
    var r := Trim(s);
    assert r == t[..|r|];
    assert t == s[|s| - |t|..];
    forall c | c in r
      ensures c in s
    {
      var k :| 0 <= k < |r| && r[k] == c;
      assert t[k] == c;
      assert s[|s| - |t| + k] == c;
    }
  }

  /** A string without surrounding white space is its own trim. */
  lemma TrimOfTrimmed(s: string)
    requires Trimmed(s)
    ensures Trim(s) == s
  {
  }

  /** A string made only of white space trims to the empty string. */
  lemma TrimOfAllSpace(s: string)
    requires AllSpace(s)
    ensures Trim(s) == ""
  {
  }

  /** Leading white space does not change the trim. */
  lemma TrimSkipsLeadingSpace(c: char, s: string)
    requires IsSpace(c)
    ensures Trim([c] + s) == Trim(s)
  {
    assert ([c] + s)[1..] == s;
  }

  /** Every character of `piece` occurs in `s`. */
  predicate CharsWithin(piece: string, s: string)
  {
    forall c :: c in piece ==> c in s
  }

  /** `s.split(sep)`: the pieces between occurrences of `sep`; there is always at least one. */
  function Split(s: string, sep: char): (r: seq<string>)
    ensures |r| >= 1
  {
    if s == [] then [""]
    else
      var rest := Split(s[1..], sep);
      if s[0] == sep then [""] + rest else [[s[0]] + rest[0]] + rest[1..]
  }

  /** No piece of a split holds the separator, and every character of a piece is from `s`. */
  lemma {:induction false} SplitPieces(s: string, sep: char)
    ensures forall k :: 0 <= k < |Split(s, sep)| ==> sep !in Split(s, sep)[k] && CharsWithin(Split(s, sep)[k], s)
  {
    if s != [] {
      SplitPieces(s[1..], sep);
      var rest := Split(s[1..], sep);
      var r := Split(s, sep);
      assert forall c :: c in s[1..] ==> c in s;
      if s[0] == sep {
        assert forall k :: 1 <= k < |r| ==> r[k] == rest[k - 1];
      } else {
        assert forall k :: 1 <= k < |r| ==> r[k] == rest[k];
      }
    }
  }

  /** `xs.join(sep)`. */
  function Join(xs: seq<string>, sep: string): string
  {
    if |xs| == 0 then ""
    else if |xs| == 1 then xs[0]
    else xs[0] + sep + Join(xs[1..], sep)
  }

  /** Joining the pieces of a split with the separator gives back the original string. */
  lemma {:induction false} JoinSplit(s: string, sep: char)
    ensures Join(Split(s, sep), [sep]) == s
  {
    if s != [] {
      var rest := Split(s[1..], sep);
      JoinSplit(s[1..], sep);
      if s[0] == sep {
        assert s == [sep] + s[1..];
      } else if |rest| == 1 {
        assert s == [s[0]] + s[1..];
      } else {
        assert Join(rest, [sep]) == rest[0] + [sep] + Join(rest[1..], [sep]);
        assert s == [s[0]] + s[1..];
      }
    }
  }

  /** A string without the separator splits into itself alone. */
  lemma {:induction false} SplitWithoutSeparator(s: string, sep: char)
    requires sep !in s
    ensures Split(s, sep) == [s]
  {
    if s != [] {
      SplitWithoutSeparator(s[1..], sep);
      assert s == [s[0]] + s[1..];
    }
  }

  lemma SplitCons(c: char, t: string, sep: char)
    ensures Split([c] + t, sep) ==
              if c == sep then [""] + Split(t, sep)
              else [[c] + Split(t, sep)[0]] + Split(t, sep)[1..]
  {
    assert ([c] + t)[1..] == t;
  }

  /** One character in front of a text whose split is `left + right`. */
  lemma SplitStep(c: char, tail: string, sep: char, left: seq<string>, right: seq<string>)
    requires |left| >= 1 && Split(tail, sep) == left + right
    ensures Split([c] + tail, sep) ==
              (if c == sep then [""] + left else [[c] + left[0]] + left[1..]) + right
  {
    SplitCons(c, tail, sep);
    if c != sep {
      assert (left + right)[0] == left[0];
      assert (left + right)[1..] == left[1..] + right;
    }
  }

  /** Splitting at one separator splits each side independently. */
  lemma {:induction false} SplitConcat(a: string, sep: char, b: string)
    ensures Split(a + [sep] + b, sep) == Split(a, sep) + Split(b, sep)
  {
    if a == [] {
      assert a + [sep] + b == [sep] + b;
      SplitCons(sep, b, sep);
    } else {
      var c, tail := a[0], a[1..] + [sep] + b;
      assert a + [sep] + b == [c] + tail;
      assert a == [c] + a[1..];
      SplitConcat(a[1..], sep, b);
      SplitStep(c, tail, sep, Split(a[1..], sep), Split(b, sep));
      SplitCons(c, a[1..], sep);
    }
  }

  /** Splitting a join gives back the pieces, provided no piece holds the separator. */
  lemma {:induction false} SplitJoin(xs: seq<string>, sep: char)
    requires |xs| >= 1
    requires forall k :: 0 <= k < |xs| ==> sep !in xs[k]
    ensures Split(Join(xs, [sep]), sep) == xs
  {
    if |xs| == 1 {
      SplitWithoutSeparator(xs[0], sep);
    } else {
      SplitJoin(xs[1..], sep);
      SplitConcat(xs[0], sep, Join(xs[1..], [sep]));
      SplitWithoutSeparator(xs[0], sep);
      assert xs == [xs[0]] + xs[1..];
    }
  }
}
